=== FILE: README.md ===
# macro-tracker nutrition backend, modelled in Dafny

This project models the Django REST backend of macro-tracker, a calorie and
macro-nutrient tracker. Users log foods. A logged food (a `FoodEntry`) stores
a snapshot of its carbohydrate, protein, fat and calorie values. Those values
come from a cached `FoodItem`, which holds per-100 g values taken from the
Nutritionix API. A `DailySummary` row keeps running totals for each
(user, date).

The model is functional. The database is one immutable value: items and
entries as sequences in primary-key order, the summary table as a map keyed
by (user, date), and the next entry id. Each request handler is one pure
transition that returns the new state or an error. Quantities are `real`.

Modules:

- `Wrappers`: `Option` and `Result`.
- `Text`: Python's `strip()` and `lower()`, and the ORM's `iexact` and
  `icontains` lookups.
- `Nutrients`: the four-field value and its arithmetic, including the
  subtraction clamped at zero.
- `Models`: the three records and their validators and uniqueness keys.
  It also holds `macros_for_grams` and `FoodEntry.clean`.
- `Queries`: `.filter(...).first()` as a first-match search.
- `Summaries`: the three `_update_summary_on_*` helpers, and `Total`, the
  from-scratch sum that `today_summary` and `DailySummarySerializer`
  compute. It also holds `Sync`, which says that every row equals its sum,
  and the proofs that each helper preserves `Sync`.
- `Resolution`: item resolution in `FoodEntrySerializer.create` and in the
  per-food loop of `log_food`.
- `EntryViews`: the handlers `perform_create`, `perform_update`,
  `perform_destroy`, `today_summary` and `log_food`, with an invariant that
  the entry endpoints preserve.
- `Registration`: `register_user`, with the username normalisation of
  `create_user` as a parameter.

The Nutritionix request is not performed. Its outcome is an input: a `Lookup`
that is either `Unreachable` or a `Reply` carrying the `foods` array. The
current date (`timezone.now()`) is also an input. Token issuance and refresh
use `rest_framework_simplejwt` (backend/urls.py). That library is not part of
this model.

## Model

| member | source | states |
|---|---|---|
| Models.MacrosForGrams | nutrition/models.py:45-60 | Each of the four returned values, times 100, equals the item's per-100 g value times the grams. |
| Models.MacrosAtHundred | nutrition/models.py:50-54 | At 100 g, the result is exactly the stored per-100 g values. |
| Models.MacrosAdditive | nutrition/models.py:50-54 | Macros for g1 + g2 grams equal the sum of the macros for g1 and for g2. |
| Models.MacrosMonotone | nutrition/models.py:28-31 | With non-negative per-100 g values and 0 <= g1 <= g2, every output for g1 is >= 0 and no output for g2 is smaller. |
| Models.MacrosNonNegative | nutrition/models.py:28-31 | A valid item at a non-negative weight gives non-negative macros and calories. |
| Models.Clean | nutrition/models.py:102-110 | `clean` only inspects the entry. When it rejects, the expected value it quotes is 4·carbs + 4·protein + 9·fat. |
| Models.CleanTolerance | nutrition/models.py:104-106 | `clean` accepts exactly when the calories are within 0.01 kcal of the Atwater value, on either side. |
| Models.ScaledItemIsClean | nutrition/models.py:45-60 | If an item's per-100 g calories equal its Atwater value, a snapshot of it at any weight passes `clean`. |
| Models.InsertItem | nutrition/models.py:35-36 | The insert fails with IntegrityError exactly when (source, source_food_id) is already taken; a NULL id never collides. On success the item is appended and keys stay unique. |
| Queries.FirstWhere | nutrition/serializers.py:38 | `.first()` returns the first row matching the filter, and no earlier row matches; None exactly when no row matches. |
| Text.Lower | nutrition/views.py:214 | `lower()` keeps the length, maps each of A–Z to its lower-case letter (code point + 32), and keeps every other character. |
| Text.Strip | nutrition/views.py:213-214 | `strip()`; characterised by Text.StripSpec. |
| Text.EqualsIgnoreCase | nutrition/views.py:229-232 | The `iexact` lookup: equal once both sides are lower-cased. |
| Text.ContainsIgnoreCase | nutrition/serializers.py:38 | The `icontains` lookup: the lower-cased needle occurs in the lower-cased name. |
| Text.StripSpec | nutrition/views.py:213-214 | `strip()` returns a contiguous slice of the input, with no whitespace at either end and only whitespace cut off. |
| Text.StripIdempotent | nutrition/views.py:213-214 | Stripping twice is the same as stripping once. |
| Text.LowerIdempotent | nutrition/views.py:214 | Lower-casing twice is the same as lower-casing once. |
| Text.EqualsIgnoreCaseContains | nutrition/views.py:229-232 | An `iexact` name match is also an `icontains` match. |
| Summaries.OnCreate | nutrition/views.py:96-102 | The entry's row exists afterwards and holds the old totals (zero if there was no row) plus the entry's four values. Every other row is unchanged. |
| Summaries.OnDelete | nutrition/views.py:121-130 | With no row for the entry, nothing changes. Otherwise each total becomes max(total - value, 0), so the row is non-negative. Every other row is unchanged. |
| Summaries.OnUpdate | nutrition/views.py:104-119 | On the same date, the row (created at zero if missing) receives new minus old for each field. Rows other than the old and new (user, date) are unchanged. |
| Summaries.Total | nutrition/views.py:145-151 | The from-scratch sum of the four values over the entries of one (user, date), the reference every row is measured against. |
| Summaries.TotalConcat | nutrition/views.py:145-151 | The from-scratch sum over a concatenation is the sum of the two sums. |
| Summaries.TotalRemove | nutrition/views.py:145-151 | Removing an entry takes exactly its contribution off the sum. |
| Summaries.TotalReplace | nutrition/views.py:145-151 | Replacing an entry swaps its contribution for the new entry's. |
| Summaries.TotalWithoutEntries | nutrition/views.py:155-158 | A (user, date) with no entries sums to zero, the `or 0.0` default. |
| Summaries.TotalNonNegative | nutrition/models.py:80-83 | Sums of non-negative entries are non-negative. |
| Summaries.TotalCovers | nutrition/models.py:80-83 | With non-negative entries, the sum covers each entry's contribution. |
| Summaries.CreateKeepsSync | nutrition/models.py:115-116 | If every row equals its from-scratch sum, that still holds after appending an entry and running `_update_summary_on_create`. |
| Summaries.DeleteNeverClamps | nutrition/views.py:126-129 | While rows equal their sums and entries are non-negative, the row covers the deleted entry, so the max(…, 0) clamp is the plain difference. |
| Summaries.DeleteKeepsSync | nutrition/views.py:121-130 | With non-negative entries, deleting an entry and running `_update_summary_on_delete` keeps every row equal to its sum. |
| Summaries.MoveKeepsRow | nutrition/views.py:105-107 | With non-negative entries, on a date change the delete-then-create path keeps each row equal to its sum. |
| Summaries.SameDateKeepsRow | nutrition/views.py:108-119 | On the same date, adding the deltas keeps each row equal to its sum. |
| Summaries.UpdateKeepsSync | nutrition/views.py:104-119 | With non-negative entries, replacing an entry by its update (same owner) and running `_update_summary_on_update` keeps every row equal to its sum, on both paths. |
| Resolution.ServingWeight | nutrition/views.py:212 | A missing or zero weight reads as 100 g; any other weight is used as given. The result is never zero. |
| Resolution.Per100RoundTrip | nutrition/views.py:222-225 | Scaling the per-100 g values v·100/w back to w grams gives exactly the reported nutrients v. |
| Resolution.Per100Scaling | nutrition/serializers.py:56-68 | For any amount, an item built from a reply element yields the reported nutrients times amount / serving weight. |
| Resolution.ValidFoodPer100 | nutrition/serializers.py:61-64 | A reply element with no negative value gives non-negative per-100 g values. |
| Resolution.LocalMatch | nutrition/serializers.py:38 | The first item whose name contains the query ignoring case, with none before it; None exactly when no name contains it. |
| Resolution.ItemFromFirstFood | nutrition/serializers.py:55-65 | The new item has source "nutritionix", the tag as `f.get("tag_id", "")` reads it ("" when absent, NULL when null), the food name or the query, and per-100 g values that give back the reported serving. |
| Resolution.SerializerCreate | nutrition/serializers.py:32-82 | A local `icontains` match is used with the store unchanged. Otherwise: Unreachable fails upstream, no foods gives a ValidationError, else the item built from the first food is inserted. The insert fails with IntegrityError exactly when its (nutritionix, tag_id) key is taken, and on success exactly that item is appended. The entry has weight amount_g, the item's name, and `macros_for_grams(amount_g)` of the chosen item. Keys stay unique. |
| Resolution.CreateIgnoresLookupWhenLocal | nutrition/serializers.py:37-41 | With a local match, the Nutritionix outcome does not affect the result, so no fetch is needed. |
| Resolution.CreateFromFirstFood | nutrition/serializers.py:55-79 | Without a local match, a successful create needs a non-empty reply, and its entry carries the first food's reported nutrients scaled by amount / serving weight. |
| Resolution.CreatedEntryNonNegative | nutrition/serializers.py:67-81 | Valid items, a valid reply and a non-negative amount give a non-negative entry and a valid store. |
| Resolution.ResolveLogged | nutrition/views.py:213-243 | With a non-empty stripped tag, the item is keyed by (nutritionix, tag), and the store is unchanged exactly when that key was taken. Without a tag, the store is unchanged exactly when some Nutritionix item matches the stripped, lower-cased name ignoring case; the first such item is used; otherwise one new item is appended. Unique keys are preserved, and valid items stay valid when the reply element is plausible (nothing negative). |
| Resolution.LoggedItem | nutrition/views.py:216-243 | The item `log_food` creates has source "nutritionix", is keyed by the stripped tag (NULL when there is none), is named after the food or the query, and gives back the reported serving. |
| Resolution.LogOne | nutrition/views.py:211-259 | The store is the one `ResolveLogged` returns and the entry points at the item it chose. The entry weighs one serving, has the item's name and scaled macros, source "nutritionix", and `source_food_id` the stripped tag (None when empty). When the item is new, the macros are exactly the reported nutrients. Unique keys are preserved, and valid items stay valid when the reply element is plausible (nothing negative). |
| Resolution.LogFoods | nutrition/views.py:211-267 | One entry per food, in order, with consecutive ids, the user, today, the serving weight and source "nutritionix". The item store only grows and keeps unique keys. |
| Resolution.LogFoodsValid | nutrition/views.py:211-255 | Over valid items and a valid reply, the loop keeps every item valid and saves only non-negative snapshots. |
| Resolution.LogFoodsPrefix | nutrition/views.py:211-267 | Entry k is what one iteration makes of food k, given the store the first k iterations left. |
| Resolution.LogFoodsFreshEntriesMatchReply | nutrition/views.py:234-245 | An entry whose item was created in its own iteration carries exactly the reported nutrients of its food. |
| Resolution.SerializerCreateChecked | nutrition/models.py:77 | An amount below 0.01 is refused with 400. Otherwise it behaves as `create`. Over valid items and a plausible reply (nothing negative), the entry satisfies the field validators and the store stays valid. |
| Resolution.NegativeAmountAccepted | nutrition/serializers.py:21 | `create` stores -100 g of an item as an entry with -52 kcal, which fails the entry's validators. |
| Resolution.SerializerCreateByKey | nutrition/serializers.py:55-65 | When `create` would insert a Nutritionix item whose (nutritionix, tag_id) key is already stored, the first stored item with that key is reused and the store is unchanged. In every other case the result is exactly `create`'s. Never fails with IntegrityError, and keeps keys unique. |
| Resolution.TagCollisionRejected | nutrition/serializers.py:57-59 | When the tag is already stored under a name that does not contain the query, `create` fails with IntegrityError while the keyed variant succeeds. |
| EntryViews.PerformCreate | nutrition/views.py:80-83 | A blank `food` (after stripping) is refused with 400. Otherwise it fails exactly when `create` on the stripped name fails, with the same error. On success the store and the appended entry are exactly what `create` returned, the entry has the next id, its row gains its values, and other rows are unchanged. |
| EntryViews.FindEntry | nutrition/views.py:77-78 | `get_object()` on the requester's entries: a position holding that id and owner; None exactly when the requester has no entry with that id. |
| EntryViews.PerformCreateValidated | nutrition/models.py:77 | `perform_create` with the weight validator applied: below 0.01 g it answers 400, otherwise it is `perform_create`. |
| EntryViews.Moved | nutrition/serializers.py:23-30 | An update writes only `date`: the entry keeps its id, owner, item, name, weight and macros, and takes the new date when one is given. |
| EntryViews.PerformUpdate | nutrition/views.py:85-89 | Answers 404 exactly when the requester has no entry with that id. Otherwise only that entry changes (its date), and only its old and new rows can change. On a same-date update the entry's row exists afterwards with its totals unchanged: the deltas are zero because every macro field is read-only. |
| EntryViews.PerformDestroy | nutrition/views.py:91-94 | Answers 404 exactly when the requester has no entry with that id. Otherwise that entry is removed; its row, if present, becomes field-wise max(total - value, 0); with no row the table is unchanged; other rows are unchanged. |
| EntryViews.LogFood | nutrition/views.py:189-269 | Answers 400 for a missing or empty query and 502 when Nutritionix is unreachable, and succeeds otherwise. On success the saved entries and the item store are exactly those of the loop (`LogFoods`), the next id advances by one per food, and the summary table is left as it was. |
| EntryViews.LogFoodSynced | nutrition/views.py:247-259 | Fails exactly when `log_food` fails. On success the new state is `log_food`'s (items, entries and next id) with each saved entry booked into its summary row. |
| EntryViews.TodaySummary | nutrition/views.py:132-159 | A malformed date gives 400, an omitted date means today, and the totals are the from-scratch sums over the requester's entries on that date. |
| EntryViews.SerializeSummary | nutrition/serializers.py:102-112 | Each total of a row is the from-scratch sum over its owner's entries of its date. |
| EntryViews.SerializeIgnoresStoredTotals | nutrition/serializers.py:102-112 | The serializer's totals do not depend on the totals stored in the row. |
| EntryViews.PerformCreateKeepsInvariant | nutrition/models.py:115-116 | For a non-negative amount and a plausible reply, creating keeps every row equal to its sum, entries and items valid, item keys unique, and entry ids increasing and fresh. |
| EntryViews.PerformCreateValidatedKeepsInvariant | nutrition/models.py:77-83 | With the weight validator and a plausible reply (nothing negative), creating keeps the invariant for any amount, and the new entry passes its validators. |
| EntryViews.PerformUpdateKeepsInvariant | nutrition/views.py:85-89 | Updating keeps the invariant. |
| EntryViews.PerformUpdateKeepsSync | nutrition/views.py:85-89 | When the entry exists, the update succeeds, and afterwards every stored row equals the from-scratch total of the updated entries. |
| EntryViews.PerformUpdateKeepsEntryFacts | nutrition/views.py:85-89 | When the entry exists, the update succeeds without touching items or the id counter, and the entries stay non-negative, with ids increasing and below the counter. |
| EntryViews.PerformDestroyKeepsInvariant | nutrition/views.py:91-94 | Deleting keeps the invariant. |
| EntryViews.ApplyCreatesKeepsSync | nutrition/views.py:96-102 | Booking a batch of new entries one by one keeps every row equal to its sum. |
| EntryViews.LogFoodSyncedKeepsInvariant | nutrition/models.py:115-116 | With its entries booked, `log_food` keeps the invariant for a plausible reply. |
| EntryViews.TodaySummaryMatchesStored | nutrition/views.py:145-158 | While the invariant holds, `today_summary` reports exactly the stored row, or zero when there is none. |
| EntryViews.TodaySummaryEmptyDay | nutrition/views.py:155-158 | A day without entries reports zero totals. |
| EntryViews.SerializeMatchesStored | nutrition/serializers.py:102-112 | While the invariant holds, the serializer's recomputed totals equal the stored row. |
| EntryViews.MoveIsDeleteThenCreate | nutrition/views.py:104-107 | Moving an entry to another date leaves the summaries exactly as deleting it and then creating the moved entry would. |
| EntryViews.DestroyNeverClamps | nutrition/views.py:126-129 | While the invariant holds, a delete subtracts exactly, with no clamping. |
| EntryViews.LogOneFreshFood | nutrition/views.py:234-259 | Logging one food against an empty item store saves one entry with exactly the reported nutrients. |
| EntryViews.LogFoodBreaksSync | nutrition/views.py:247-259 | From any synced state without cached items, logging a food with positive calories leaves that day's row below its sum, so sync is broken. |
| EntryViews.ClampFiresAfterLogFood | nutrition/views.py:126 | After `log_food`, then creating part of a serving of the cached item through the entry endpoint, then deleting the logged entry, the row is clamped to 0 kcal while the remaining entry still has calories. |
| Registration.Register | nutrition/views.py:291-302 | Created exactly when both fields are present and non-empty and neither the username nor its normal form is stored; then exactly the normal form is added. Username-taken exactly when the raw username is stored. The database refuses the insert (500) exactly when only the normal form is stored. Nothing is added otherwise. |
| Registration.RegisterTwiceRefused | nutrition/views.py:298-301 | Registering the same username again is refused and changes nothing, and the refusal is "already taken" when the name is in normal form. |
| Registration.FullWidthNameFails | nutrition/views.py:298-301 | With "foo" stored, the full-width "ｆｏｏ" passes the guard and the insert of its normal form fails, while the normalised guard answers "already taken". |
| Registration.RegisterNormalized | nutrition/views.py:298-301 | The guard on the normal form never lets the insert fail; it creates exactly when the normal form is new, and agrees with `register_user` on names already in normal form. |

## Left out

- Rounding: `round(..., 6)` in `macros_for_grams` and `clean`, and `round(..., 2)` in the summary serializer, are omitted. Arithmetic is on exact reals, not IEEE floats.
- Models.MacrosAtHundred: holds exactly, not "up to the 6-place rounding", because rounding is not modelled.
- The Nutritionix HTTP request, its headers and credentials, and `raise_for_status` are not modelled. The reply is an input. In `create` a failed request is an uncaught exception (`UpstreamFailure`). In `log_food` it is a 502.
- Reply fields are abstracted. A `food_name` that is absent, null or empty is one case: "", which falls back to the query. A `tag_id` is absent, null or a string: `create` stores "" for an absent one and NULL for a null one, and `log_food` reads both as "". An absent nutrient is 0. A `null` nutrient (where `float(None)` raises) is not modelled.
- `tag_id` as a number: `log_food` strips it, which would raise on a non-string. Tags are modelled as strings.
- `FoodEntry.source_food_id` is an `IntegerField`, but `log_food` stores the tag string there. The conversion the database would attempt, and its failure for non-numeric tags, is not modelled; the tag is kept as given.
- Case folding: `lower()`, `iexact` and `icontains` fold ASCII letters only.
- The ORM, querysets and `transaction.atomic` are not modelled as such, and there is no concurrency. The entry endpoints run in a transaction and are modelled as one atomic transition each.
- EntryViews.LogFood: `log_food` has no `transaction.atomic`, so an exception in a later iteration keeps the items and entries of the earlier ones. Its only such exceptions (a null nutrient, a non-string or non-numeric tag) are not modelled, so the model's `log_food` never fails after its first write.
- Dates: `strptime` parsing becomes the three-way `DateParam` input, and dates are day numbers. The current date is an input to each handler, and the inputs are separate: `log_food` dates its entries with `timezone.now().date()` (the UTC date when time zones are on), while `today_summary` defaults to `timezone.localdate()`. Near midnight the two can differ, and the model lets them.
- `FoodEntry.timestamp`, `created_at`, `updated_at`, `serving_description`, `last_synced` and the ordering metadata are not modelled; they hold no logic.
- The `search_external` action, the `today_entries`, `entries_by_date` and `daily_summaries` read-only views, and the plain CRUD of `FoodItemViewSet` are not modelled. They are read paths or generated code with no bookkeeping.
- Serializer plumbing is mostly not modelled: field parsing, `read_only_fields`, permissions, filtering and ordering. A missing or null `food` or `amount_g`, or a non-numeric `amount_g`, is refused with 400 by the serializer; the model takes both as a string and a number. The `CharField` behaviour of `food` is modelled: it is stripped, and a blank value is refused with 400. Only `date` reaches an update, because every macro field is read-only, so `PerformUpdate` takes only a new date.
- Password hashing in `create_user` and the user record beyond its username are not modelled. `not password` is modelled as missing or empty.
- Unicode NFKC normalisation is not defined here: `create_user`'s `normalize_username` is a parameter of `Register`. The `username=` lookup is modelled as exact string equality; a database collation that ignores case is not modelled.
- JWT token obtain and refresh (backend/urls.py:10-11) is not modelled: it is library code that is not part of this model.
- Both URL routing tables are not modelled: they contain no logic.
- EntryViews.PerformCreateKeepsInvariant: requires a non-negative amount. `create` as written accepts any amount (Finding 2), and a negative one breaks the non-negativity that the clamp argument relies on.

## Findings

| source | as written | input that shows it | evidently intended | confidence | as-written member | corrected member |
|---|---|---|---|---|---|---|
| nutrition/views.py:247-259 | `log_food` saves entries with `FoodEntry.objects.create` and never updates `DailySummary` | no items and an empty summary table; log one untagged food with c > 0 kcal per serving; add less than a serving of the cached item through the entries endpoint; delete the logged entry | every saved entry is booked into its (user, date) row, so rows stay equal to their entries' sums (nutrition/models.py:115-116) | not executed | EntryViews.LogFood (shown by EntryViews.LogFoodBreaksSync and EntryViews.ClampFiresAfterLogFood) | EntryViews.LogFoodSynced (EntryViews.LogFoodSyncedKeepsInvariant) |
| nutrition/serializers.py:21, 71-81 | `amount_g` is any float, and `objects.create` does not run the `weight_g >= 0.01` validator | an item "apple" at 52 kcal/100 g, `food` = "apple", `amount_g` = -100 | amounts below 0.01 g are refused with 400 | not executed | Resolution.SerializerCreate (shown by Resolution.NegativeAmountAccepted) | Resolution.SerializerCreateChecked, used by EntryViews.PerformCreateValidated (EntryViews.PerformCreateValidatedKeepsInvariant) |
| nutrition/serializers.py:57-65 | the item from the first food is inserted without first looking up its (nutritionix, tag_id) key | an item "apple" stored with tag "t1"; `food` = "apples", whose name does not match; the reply's first food has tag "t1" | reuse the stored item with that key, as `log_food` does with `get_or_create` | not executed | Resolution.SerializerCreate (shown by Resolution.TagCollisionRejected) | Resolution.SerializerCreateByKey |
| nutrition/views.py:298-301 | the "already taken" guard looks up the raw username, but `create_user` stores its NFKC form under a unique column | "foo" registered; register "ｆｏｏ" (full-width letters) with any password | a name whose normal form is taken is refused with 400 "Username already taken." | not executed | Registration.Register (shown by Registration.FullWidthNameFails) | Registration.RegisterNormalized |

=== FILE: entry_views.dfy ===
/** The request handlers of the nutrition API as transitions of one
    database state. The entry endpoints run inside `transaction.atomic`, so
    a failed request leaves the state as it was. `log_food` has no
    transaction; the failures that could stop its loop half-way are not part
    of this model, so here it never fails after its first write. */
module EntryViews {
  import opened Wrappers
  import opened Nutrients
  import opened Models
  import opened Queries
  import opened Summaries
  import opened Resolution
  import opened Text

  /** The tables the handlers touch: food items and entries in primary key
      order, the daily summaries, and the next entry primary key. */
  datatype Db = Db(items: seq<FoodItem>, entries: seq<FoodEntry>, summaries: SummaryTable, nextId: nat)

  predicate IdsIncreasing(es: seq<FoodEntry>) {
    forall i, j | 0 <= i < j < |es| :: es[i].id < es[j].id
  }

  predicate IdsBelow(es: seq<FoodEntry>, n: nat) {
    forall i | 0 <= i < |es| :: es[i].id < n
  }

  /** The state the entry endpoints maintain: the summaries agree with the
      entries, entry snapshots and items respect their validators, item
      keys are unique and entry keys are fresh. */
  ghost predicate Invariant(db: Db) {
    && Sync(db.entries, db.summaries)
    && AllNonNegative(db.entries)
    && ValidItems(db.items)
    && ItemsUnique(db.items)
    && IdsIncreasing(db.entries)
    && IdsBelow(db.entries, db.nextId)
  }

  /** `get_object()` on `FoodEntry.objects.filter(user=request.user)`: the
      requester's entry with primary key `id`. */
  function FindEntry(es: seq<FoodEntry>, user: UserId, id: nat): (r: Option<nat>)
    ensures r.None? <==> forall j | 0 <= j < |es| :: !(es[j].id == id && es[j].user == user)
    ensures r.Some? ==> r.value < |es| && es[r.value].id == id && es[r.value].user == user
  {
    FirstWhere(es, (e: FoodEntry) => e.id == id && e.user == user)
  }

  /** `perform_create`: the serializer's field validation, its `create`,
      then `_update_summary_on_create`, in one transaction. The `food`
      field is a `CharField`: it arrives stripped, and a blank value is
      refused with 400 before `create` runs. */
  function PerformCreate(db: Db, user: UserId, date: Date, food: string, amount: real, lookup: Lookup)
    : (r: Result<Db, ApiError>)
    ensures Strip(food) == "" ==> r == Failure(BadRequest)
    ensures Strip(food) != "" ==>
              var c := SerializerCreate(db.items, db.nextId, user, date, Strip(food), amount, lookup);
              && (c.Failure? <==> r.Failure?)
              && (c.Failure? ==> r.error == c.error)
              && (r.Success? ==> r.value.items == c.value.0 && r.value.entries == db.entries + [c.value.1])
    ensures r.Success? ==>
              && |r.value.entries| == |db.entries| + 1
              && r.value.entries[..|db.entries|] == db.entries
              && r.value.nextId == db.nextId + 1
    ensures r.Success? ==>
              var e := r.value.entries[|db.entries|];
              && e.id == db.nextId && e.user == user && e.date == date && e.weight == amount
              && Stored(r.value.summaries, SummaryKey(user, date)) == Add(Stored(db.summaries, SummaryKey(user, date)), e.macros)
    ensures r.Success? ==> forall k | k != SummaryKey(user, date) :: SameRow(db.summaries, r.value.summaries, k)
  {
    var name := Strip(food);
    if name == "" then Failure(BadRequest)
    else match SerializerCreate(db.items, db.nextId, user, date, name, amount, lookup)
      case Failure(err) => Failure(err)
      case Success((items', e)) =>
        assert (db.entries + [e])[..|db.entries|] == db.entries;
        Success(Db(items', db.entries + [e], OnCreate(db.summaries, e), db.nextId + 1))
  }

  /** `perform_create` with the weight validator of `weight_g` applied to
      `amount_g` first, as `SerializerCreateChecked` does. */
  function PerformCreateValidated(db: Db, user: UserId, date: Date, food: string, amount: real, lookup: Lookup)
    : (r: Result<Db, ApiError>)
    ensures amount < 0.01 ==> r == Failure(BadRequest)
    ensures amount >= 0.01 ==> r == PerformCreate(db, user, date, food, amount, lookup)
    ensures ValidItems(db.items) && ValidLookup(lookup) && r.Success? ==> ValidEntry(r.value.entries[|db.entries|])
  {
    if amount < 0.01 then Failure(BadRequest)
    else
      CreatedEntryNonNegative(db.items, db.nextId, user, date, Strip(food), amount, lookup);
      PerformCreate(db, user, date, food, amount, lookup)
  }

  /** The entry a successful update stores: the serializer only writes
      `date` (macros and weight are read-only fields), so the previous entry
      with the new date when one is given. */
  function Moved(previous: FoodEntry, newDate: Option<Date>): (e: FoodEntry)
    ensures newDate.Some? ==> e.date == newDate.value
    ensures newDate.None? ==> e == previous
    ensures e.id == previous.id && e.user == previous.user && e.item == previous.item && e.name == previous.name
    ensures e.weight == previous.weight && e.macros == previous.macros
  {
    previous.(date := newDate.GetOr(previous.date))
  }

  /** `perform_update`: fetch the stored entry, save the update, then
      `_update_summary_on_update(previous, updated)`, in one transaction. */
  function PerformUpdate(db: Db, user: UserId, id: nat, newDate: Option<Date>): (r: Result<Db, ApiError>)
    ensures FindEntry(db.entries, user, id).None? <==> r == Failure(NotFound)
    ensures r.Success? ==>
              var i := FindEntry(db.entries, user, id).value;
              var previous := db.entries[i];
              && r.value.entries == db.entries[i := Moved(previous, newDate)]
              && r.value.items == db.items && r.value.nextId == db.nextId
              && forall k | k != KeyOf(previous) && k != KeyOf(Moved(previous, newDate)) ::
                   SameRow(db.summaries, r.value.summaries, k)
    ensures r.Success? ==>
              var previous := db.entries[FindEntry(db.entries, user, id).value];
              (newDate.None? || newDate.value == previous.date) ==>
                KeyOf(previous) in r.value.summaries
                && Stored(r.value.summaries, KeyOf(previous)) == Stored(db.summaries, KeyOf(previous))
  {
    match FindEntry(db.entries, user, id)
    case None => Failure(NotFound)
    case Some(i) =>
      var previous := db.entries[i];
      var updated := Moved(previous, newDate);
      Success(db.(entries := db.entries[i := updated], summaries := OnUpdate(db.summaries, previous, updated)))
  }

  /** `perform_destroy`: `_update_summary_on_delete`, then delete the
      entry, in one transaction. */
  function PerformDestroy(db: Db, user: UserId, id: nat): (r: Result<Db, ApiError>)
    ensures FindEntry(db.entries, user, id).None? <==> r == Failure(NotFound)
    ensures r.Success? ==>
              var i := FindEntry(db.entries, user, id).value;
              && r.value.entries == RemoveAt(db.entries, i)
              && r.value.items == db.items && r.value.nextId == db.nextId
              && forall k | k != KeyOf(db.entries[i]) :: SameRow(db.summaries, r.value.summaries, k)
    ensures r.Success? ==>
              var e := db.entries[FindEntry(db.entries, user, id).value];
              && (KeyOf(e) in db.summaries ==>
                    KeyOf(e) in r.value.summaries
                    && r.value.summaries[KeyOf(e)] == ClampSub(db.summaries[KeyOf(e)], e.macros))
              && (KeyOf(e) !in db.summaries ==> r.value.summaries == db.summaries)
  {
    match FindEntry(db.entries, user, id)
    case None => Failure(NotFound)
    case Some(i) =>
      Success(db.(entries := RemoveAt(db.entries, i), summaries := OnDelete(db.summaries, db.entries[i])))
  }

  /** `log_food`: reject a missing or empty query, answer 502 when
      Nutritionix cannot be reached, else store one entry per reported
      food, dated today. The summaries are not touched. Returns the new
      state and the saved entries. */
  function LogFood(db: Db, user: UserId, query: Option<string>, lookup: Lookup, today: Date)
    : (r: Result<(Db, seq<FoodEntry>), ApiError>)
    ensures query.None? || query == Some("") ==> r == Failure(BadRequest)
    ensures query.Some? && query.value != "" && lookup.Unreachable? ==> r == Failure(BadGateway)
    ensures query.Some? && query.value != "" && lookup.Reply? ==> r.Success?
    ensures r.Success? ==>
              && lookup.Reply? && |r.value.1| == |lookup.foods|
              && r.value.0.entries == db.entries + r.value.1
              && r.value.0.summaries == db.summaries
    ensures r.Success? ==>
              query.Some? &&
              var res := LogFoods(db.items, lookup.foods, query.value, user, today, db.nextId);
              && r.value.1 == res.1 && r.value.0.items == res.0
              && r.value.0.nextId == db.nextId + |lookup.foods|
  {
    if query.None? || query.value == "" then Failure(BadRequest)
    else match lookup
      case Unreachable => Failure(BadGateway)
      case Reply(foods) =>
        var (items', created) := LogFoods(db.items, foods, query.value, user, today, db.nextId);
        Success((Db(items', db.entries + created, db.summaries, db.nextId + |foods|), created))
  }

  /** `_update_summary_on_create` applied to each entry in turn. */
  function ApplyCreates(s: SummaryTable, es: seq<FoodEntry>): SummaryTable
    decreases |es|
  {
    if |es| == 0 then s else ApplyCreates(OnCreate(s, es[0]), es[1..])
  }

  /** `log_food` with each saved entry also booked into its daily summary,
      as the entry endpoints do. */
  function LogFoodSynced(db: Db, user: UserId, query: Option<string>, lookup: Lookup, today: Date)
    : (r: Result<(Db, seq<FoodEntry>), ApiError>)
    ensures LogFood(db, user, query, lookup, today).Failure? <==> r.Failure?
    ensures r.Success? ==>
              && r.value.1 == LogFood(db, user, query, lookup, today).value.1
              && r.value.0.entries == db.entries + r.value.1
              && r.value.0.summaries == ApplyCreates(db.summaries, r.value.1)
    ensures r.Success? ==>
              r.value.0 == LogFood(db, user, query, lookup, today).value.0.(summaries := ApplyCreates(db.summaries, r.value.1))
  {
    match LogFood(db, user, query, lookup, today)
    case Failure(err) => Failure(err)
    case Success((db', created)) => Success((db'.(summaries := ApplyCreates(db.summaries, created)), created))
  }

  /** How the `date` query parameter of `today-summary` arrived. */
  datatype DateParam = Omitted | Given(date: Date) | Malformed

  /** `today_summary`: the day asked for (today when omitted, 400 when
      unparseable) and the from-scratch sums over the requester's entries
      of that day. */
  function TodaySummary(db: Db, user: UserId, param: DateParam, today: Date): (r: Result<(Date, Nutrients), ApiError>)
    ensures param.Malformed? <==> r == Failure(BadRequest)
    ensures param.Omitted? ==> r.Success? && r.value.0 == today
    ensures param.Given? ==> r.Success? && r.value.0 == param.date
    ensures r.Success? ==> r.value.1 == Total(db.entries, SummaryKey(user, r.value.0))
  {
    match param
    case Malformed => Failure(BadRequest)
    case Omitted => Success((today, Total(db.entries, SummaryKey(user, today))))
    case Given(d) => Success((d, Total(db.entries, SummaryKey(user, d))))
  }

  /** `DailySummarySerializer`: each total is recomputed from the owner's
      entries of the row's date; the stored totals are not read. */
  function SerializeSummary(row: DailySummary, entries: seq<FoodEntry>): Nutrients {
    Total(entries, SummaryKey(row.user, row.date))
  }

  /** The serializer shows the same numbers whatever the row stores. */
  lemma SerializeIgnoresStoredTotals(row: DailySummary, entries: seq<FoodEntry>, other: Nutrients)
    ensures SerializeSummary(row.(totals := other), entries) == SerializeSummary(row, entries)
  {
  }

  // ---------------------------------------------------------------------
  // The invariant is kept by the entry endpoints.

  lemma IdsAppend(es: seq<FoodEntry>, extra: seq<FoodEntry>, n: nat, m: nat)
    requires IdsIncreasing(es) && IdsBelow(es, n)
    requires |extra| == m
    requires forall k | 0 <= k < |extra| :: extra[k].id == n + k
    ensures IdsIncreasing(es + extra) && IdsBelow(es + extra, n + m)
  {
  }

  lemma IdsRemove(es: seq<FoodEntry>, i: nat, n: nat)
    requires IdsIncreasing(es) && IdsBelow(es, n)
    requires i < |es|
    ensures IdsIncreasing(RemoveAt(es, i)) && IdsBelow(RemoveAt(es, i), n)
  {
    var rest := RemoveAt(es, i);
    forall a | 0 <= a < |rest|
      ensures rest[a] == if a < i then es[a] else es[a + 1]
    {
    }
  }

  /** Creating an entry keeps the invariant, given a non-negative amount and
      a plausible Nutritionix reply. */
  lemma PerformCreateKeepsInvariant(db: Db, user: UserId, date: Date, food: string, amount: real, lookup: Lookup)
    requires Invariant(db)
    requires amount >= 0.0 && ValidLookup(lookup)
    ensures var r := PerformCreate(db, user, date, food, amount, lookup);
            r.Success? ==> Invariant(r.value)
  {
    var c := SerializerCreate(db.items, db.nextId, user, date, Strip(food), amount, lookup);
    if Strip(food) != "" && c.Success? {
      var (items', e) := c.value;
      CreatedEntryNonNegative(db.items, db.nextId, user, date, Strip(food), amount, lookup);
      CreateKeepsSync(db.entries, db.summaries, e);
      IdsAppend(db.entries, [e], db.nextId, 1);
    }
  }

  /** With the weight validator in place, creating an entry keeps the
      invariant for any amount. */
  lemma PerformCreateValidatedKeepsInvariant(db: Db, user: UserId, date: Date, food: string, amount: real,
                                             lookup: Lookup)
    requires Invariant(db)
    requires ValidLookup(lookup)
    ensures var r := PerformCreateValidated(db, user, date, food, amount, lookup);
            r.Success? ==> Invariant(r.value) && ValidEntry(r.value.entries[|db.entries|])
  {
    if amount >= 0.01 {
      PerformCreateKeepsInvariant(db, user, date, food, amount, lookup);
    }
  }

  /** Updating an entry keeps the invariant. */
  lemma PerformUpdateKeepsInvariant(db: Db, user: UserId, id: nat, newDate: Option<Date>)
    requires Invariant(db)
    ensures var r := PerformUpdate(db, user, id, newDate);
            r.Success? ==> Invariant(r.value)
  {
    if FindEntry(db.entries, user, id).Some? {
      PerformUpdateKeepsSync(db, user, id, newDate);
      PerformUpdateKeepsEntryFacts(db, user, id, newDate);
    }
  }

  /** The summaries `perform_update` commits agree with its entries. */
  lemma PerformUpdateKeepsSync(db: Db, user: UserId, id: nat, newDate: Option<Date>)
    requires Invariant(db) && FindEntry(db.entries, user, id).Some?
    ensures var r := PerformUpdate(db, user, id, newDate);
            r.Success? && Sync(r.value.entries, r.value.summaries)
  {
    var i := FindEntry(db.entries, user, id).value;
    PerformUpdateFound(db, user, id, newDate);
    UpdateKeepsSync(db.entries, db.summaries, i, Moved(db.entries[i], newDate));
  }

  /** `perform_update` keeps the items, the id counter and the entry
      facts of the invariant. */
  lemma PerformUpdateKeepsEntryFacts(db: Db, user: UserId, id: nat, newDate: Option<Date>)
    requires Invariant(db) && FindEntry(db.entries, user, id).Some?
    ensures var r := PerformUpdate(db, user, id, newDate);
            && r.Success? && r.value.items == db.items && r.value.nextId == db.nextId
            && AllNonNegative(r.value.entries) && IdsIncreasing(r.value.entries)
            && IdsBelow(r.value.entries, db.nextId)
  {
    var i := FindEntry(db.entries, user, id).value;
    PerformUpdateFound(db, user, id, newDate);
    ReplaceKeepsEntryFacts(db.entries, i, Moved(db.entries[i], newDate), db.nextId);
  }

  /** The state `perform_update` commits when the entry exists. */
  lemma PerformUpdateFound(db: Db, user: UserId, id: nat, newDate: Option<Date>)
    requires FindEntry(db.entries, user, id).Some?
    ensures var i := FindEntry(db.entries, user, id).value;
            var updated := Moved(db.entries[i], newDate);
            PerformUpdate(db, user, id, newDate)
            == Success(db.(entries := db.entries[i := updated], summaries := OnUpdate(db.summaries, db.entries[i], updated)))
  {
  }

  /** Replacing an entry by one with the same id and macros keeps the
      non-negativity and id facts of the invariant. */
  lemma ReplaceKeepsEntryFacts(es: seq<FoodEntry>, i: nat, u: FoodEntry, n: nat)
    requires i < |es| && u.id == es[i].id && u.macros == es[i].macros
    requires AllNonNegative(es) && IdsIncreasing(es) && IdsBelow(es, n)
    ensures AllNonNegative(es[i := u]) && IdsIncreasing(es[i := u]) && IdsBelow(es[i := u], n)
  {
    var es' := es[i := u];
    assert forall a | 0 <= a < |es'| :: es'[a].id == es[a].id && es'[a].macros == es[a].macros;
  }

  /** Deleting an entry keeps the invariant. */
  lemma PerformDestroyKeepsInvariant(db: Db, user: UserId, id: nat)
    requires Invariant(db)
    ensures var r := PerformDestroy(db, user, id);
            r.Success? ==> Invariant(r.value)
  {
    var found := FindEntry(db.entries, user, id);
    if found.Some? {
      var i := found.value;
      DeleteKeepsSync(db.entries, db.summaries, i);
      AllNonNegativeRemove(db.entries, i);
      IdsRemove(db.entries, i, db.nextId);
    }
  }

  /** Booking a batch of entries keeps the summaries equal to the sums. */
  lemma {:induction false} ApplyCreatesKeepsSync(es: seq<FoodEntry>, s: SummaryTable, extra: seq<FoodEntry>)
    requires Sync(es, s)
    ensures Sync(es + extra, ApplyCreates(s, extra))
    decreases |extra|
  {
    if |extra| == 0 {
      assert es + extra == es;
    } else {
      CreateKeepsSync(es, s, extra[0]);
      ApplyCreatesKeepsSync(es + [extra[0]], OnCreate(s, extra[0]), extra[1..]);
      assert (es + [extra[0]]) + extra[1..] == es + extra;
    }
  }

  /** With its entries booked into the summaries, `log_food` keeps the
      invariant, given a plausible Nutritionix reply. */
  lemma LogFoodSyncedKeepsInvariant(db: Db, user: UserId, query: Option<string>, lookup: Lookup, today: Date)
    requires Invariant(db)
    requires ValidLookup(lookup)
    ensures var r := LogFoodSynced(db, user, query, lookup, today);
            r.Success? ==> Invariant(r.value.0)
  {
    var r := LogFoodSynced(db, user, query, lookup, today);
    if r.Success? {
      var foods := lookup.foods;
      var res := LogFoods(db.items, foods, query.value, user, today, db.nextId);
      assert r.value.0 == Db(res.0, db.entries + res.1, ApplyCreates(db.summaries, res.1), db.nextId + |foods|);
      assert Sync(db.entries + res.1, ApplyCreates(db.summaries, res.1)) by {
        ApplyCreatesKeepsSync(db.entries, db.summaries, res.1);
      }
      assert ValidItems(res.0) && AllNonNegative(db.entries + res.1) by {
        LogFoodsValid(db.items, foods, query.value, user, today, db.nextId);
        AllNonNegativeAppend(db.entries, res.1);
      }
      assert IdsIncreasing(db.entries + res.1) && IdsBelow(db.entries + res.1, db.nextId + |foods|) by {
        IdsAppend(db.entries, res.1, db.nextId, |foods|);
      }
    }
  }

  lemma AllNonNegativeAppend(es: seq<FoodEntry>, extra: seq<FoodEntry>)
    requires AllNonNegative(es)
    requires forall k | 0 <= k < |extra| :: NonNegative(extra[k].macros)
    ensures AllNonNegative(es + extra)
  {
    var all := es + extra;
    forall a | 0 <= a < |all|
      ensures NonNegative(all[a].macros)
    {
      if a >= |es| {
        assert all[a] == extra[a - |es|];
      }
    }
  }

  /** While the invariant holds, `today_summary` reports exactly the stored
      daily summary (zero when there is no row). */
  lemma TodaySummaryMatchesStored(db: Db, user: UserId, param: DateParam, today: Date)
    requires Invariant(db)
    ensures var r := TodaySummary(db, user, param, today);
            r.Success? ==> r.value.1 == Stored(db.summaries, SummaryKey(user, r.value.0))
  {
    var r := TodaySummary(db, user, param, today);
    if r.Success? {
      assert Stored(db.summaries, SummaryKey(user, r.value.0)) == Total(db.entries, SummaryKey(user, r.value.0));
    }
  }

  /** A day without entries reports zero totals. */
  lemma TodaySummaryEmptyDay(db: Db, user: UserId, param: DateParam, today: Date)
    requires param.Omitted?
    requires forall i | 0 <= i < |db.entries| :: KeyOf(db.entries[i]) != SummaryKey(user, today)
    ensures TodaySummary(db, user, param, today) == Success((today, Zero))
  {
    TotalWithoutEntries(db.entries, SummaryKey(user, today));
  }

  /** While the invariant holds, the serializer's recomputed totals equal
      the stored ones. */
  lemma SerializeMatchesStored(db: Db, row: DailySummary)
    requires Invariant(db)
    requires SummaryKey(row.user, row.date) in db.summaries
    requires row.totals == db.summaries[SummaryKey(row.user, row.date)]
    ensures SerializeSummary(row, db.entries) == row.totals
  {
    assert Stored(db.summaries, SummaryKey(row.user, row.date)) == Total(db.entries, SummaryKey(row.user, row.date));
  }

  /** Moving an entry to another date books the summaries exactly as
      deleting it and then creating the moved entry would. */
  lemma MoveIsDeleteThenCreate(db: Db, user: UserId, id: nat, newDate: Date)
    requires FindEntry(db.entries, user, id).Some?
    requires db.entries[FindEntry(db.entries, user, id).value].date != newDate
    ensures var i := FindEntry(db.entries, user, id).value;
            PerformUpdate(db, user, id, Some(newDate)).value.summaries
            == OnCreate(PerformDestroy(db, user, id).value.summaries, db.entries[i].(date := newDate))
  {
  }

  /** While the invariant holds, a delete never needs the clamp at zero. */
  lemma DestroyNeverClamps(db: Db, user: UserId, id: nat)
    requires Invariant(db)
    requires FindEntry(db.entries, user, id).Some?
    ensures var e := db.entries[FindEntry(db.entries, user, id).value];
            KeyOf(e) in db.summaries ==>
              PerformDestroy(db, user, id).value.summaries
              == db.summaries[KeyOf(e) := Sub(db.summaries[KeyOf(e)], e.macros)]
  {
    DeleteNeverClamps(db.entries, db.summaries, FindEntry(db.entries, user, id).value);
  }

  // ---------------------------------------------------------------------
  // `log_food` as written bypasses the summaries.

  /** One `log_food` call with a single food, on a database without cached
      items, saves an entry with exactly the reported nutrients. */
  lemma LogOneFreshFood(db: Db, user: UserId, query: string, f: NutritionixFood, today: Date)
    requires db.items == [] && query != ""
    ensures var r := LogFood(db, user, Some(query), Reply([f]), today);
            && r.Success? && |r.value.1| == 1
            && r.value.0.items == [LoggedItem(f, query)]
            && r.value.1[0].macros == Reported(f)
            && r.value.1[0].id == db.nextId && r.value.1[0].user == user && r.value.1[0].date == today
  {
    var r := LogFood(db, user, Some(query), Reply([f]), today);
    LogFoodsUnfold(db.items, [f], query, user, today, db.nextId);
    assert [f][1..] == [];
  }

  /** `log_food` breaks the agreement between summaries and entries: from
      any consistent database without cached items, logging one food with
      positive calories leaves that day's summary short of the entries. */
  lemma LogFoodBreaksSync(db: Db, user: UserId, query: string, f: NutritionixFood, today: Date)
    requires Sync(db.entries, db.summaries)
    requires db.items == [] && query != ""
    requires f.calories > 0.0
    ensures var r := LogFood(db, user, Some(query), Reply([f]), today);
            && r.Success?
            && Stored(r.value.0.summaries, SummaryKey(user, today)).calories
               < Total(r.value.0.entries, SummaryKey(user, today)).calories
            && !Sync(r.value.0.entries, r.value.0.summaries)
  {
    var r := LogFood(db, user, Some(query), Reply([f]), today);
    LogOneFreshFood(db, user, query, f, today);
    var k := SummaryKey(user, today);
    var e := r.value.1[0];
    assert r.value.1 == [e];
    TotalAppend(db.entries, e, k);
    assert Stored(db.summaries, k) == Total(db.entries, k);
  }

  lemma PartOfServing(c: real, grams: real, w: real)
    requires c > 0.0 && 0.0 < grams < w
    ensures 0.0 < c * (grams / w) < c
  {
    var q := grams / w;
    assert q * w == grams;
    if q >= 1.0 {
      assert false;
    }
    var m := 1.0 - q;
    assert c * m > 0.0;
    assert c * q > 0.0;
    assert c - c * q == c * m;
  }

  /** Adding `grams` of the item `log_food` cached for an untagged food
      whose name is the query, through the entry endpoint. */
  lemma CreateFromLoggedItem(db: Db, user: UserId, query: string, f: NutritionixFood, today: Date, grams: real)
    requires query != "" && Strip(query) == query && f.foodName == ""
    requires db.items == [LoggedItem(f, query)]
    ensures var r := PerformCreate(db, user, today, query, grams, Unreachable);
            && r.Success?
            && r.value.entries == db.entries + [r.value.entries[|db.entries|]]
            && r.value.entries[|db.entries|].macros == Scale(Reported(f), grams / ServingWeight(f))
            && KeyOf(r.value.entries[|db.entries|]) == SummaryKey(user, today)
  {
    var item := db.items[0];
    EqualsIgnoreCaseContains(item.name, query);
    assert LocalMatch(db.items, query) == Some(0);
    Per100Scaling(f, item, grams);
  }

  /** Deleting the first of two entries of one day, when the stored row
      holds less than that entry's calories, clamps the row to zero and
      leaves the second entry's calories behind. */
  lemma DestroyClamps(db: Db, user: UserId, n: nat, k: SummaryKey, logged: FoodEntry, added: FoodEntry)
    requires db.entries == [logged, added]
    requires logged.id == n && logged.user == user && KeyOf(logged) == k && KeyOf(added) == k
    requires Stored(db.summaries, k).calories < logged.macros.calories
    requires added.macros.calories > 0.0
    ensures var r := PerformDestroy(db, user, n);
            && r.Success?
            && Stored(r.value.summaries, k).calories == 0.0
            && Total(r.value.entries, k).calories > 0.0
  {
    assert FindEntry(db.entries, user, n) == Some(0);
    var r := PerformDestroy(db, user, n);
    assert r.value.entries == [added];
    assert Total([added], k) == Add(Contribution(added, k), Total([added][1..], k));
  }

  /** Adding part of a serving of the cached item to a state with no
      summary row appends a second entry of that day and books exactly its
      calories. */
  lemma CreateAfterLog(db: Db, user: UserId, query: string, f: NutritionixFood, today: Date,
                       logged: FoodEntry, grams: real)
    requires query != "" && Strip(query) == query && f.foodName == ""
    requires db.items == [LoggedItem(f, query)] && db.entries == [logged] && db.summaries == map[]
    ensures var r2 := PerformCreate(db, user, today, query, grams, Unreachable);
            && r2.Success? && r2.value.entries == [logged, r2.value.entries[1]]
            && KeyOf(r2.value.entries[1]) == SummaryKey(user, today)
            && r2.value.entries[1].macros.calories == f.calories * (grams / ServingWeight(f))
            && Stored(r2.value.summaries, SummaryKey(user, today)).calories == f.calories * (grams / ServingWeight(f))
  {
    CreateFromLoggedItem(db, user, query, f, today, grams);
  }

  /** From a state holding only the entry `log_food` saved for `f`, with
      no summary row: adding less than a serving of the cached item and then
      deleting the logged entry clamps the row to zero. */
  lemma CreateThenDestroyClamps(db: Db, user: UserId, query: string, f: NutritionixFood, today: Date,
                                logged: FoodEntry, grams: real)
    requires query != "" && Strip(query) == query && f.foodName == "" && f.calories > 0.0
    requires 0.0 < grams < ServingWeight(f)
    requires db.items == [LoggedItem(f, query)] && db.entries == [logged] && db.summaries == map[]
    requires logged.user == user && logged.date == today && logged.macros == Reported(f)
    ensures var r2 := PerformCreate(db, user, today, query, grams, Unreachable);
            r2.Success? &&
            var r3 := PerformDestroy(r2.value, user, logged.id);
            && r3.Success?
            && Stored(r3.value.summaries, SummaryKey(user, today)).calories == 0.0
            && Total(r3.value.entries, SummaryKey(user, today)).calories > 0.0
  {
    var r2 := PerformCreate(db, user, today, query, grams, Unreachable);
    CreateAfterLog(db, user, query, f, today, logged, grams);
    PartOfServing(f.calories, grams, ServingWeight(f));
    DestroyClamps(r2.value, user, logged.id, SummaryKey(user, today), logged, r2.value.entries[1]);
  }

  /** The clamp at zero then fires. Log one untagged food of `c` kcal per
      serving, add `grams` (less than a serving) of the cached item through
      the entry endpoint, and delete the logged entry: the day's summary
      drops to 0 kcal while the remaining entry still has calories. */
  lemma ClampFiresAfterLogFood(user: UserId, query: string, f: NutritionixFood, today: Date, n: nat, grams: real)
    requires query != "" && Strip(query) == query
    requires f.foodName == "" && TagOf(f) == "" && f.calories > 0.0
    requires 0.0 < grams < ServingWeight(f)
    ensures var r1 := LogFood(Db([], [], map[], n), user, Some(query), Reply([f]), today);
            r1.Success? &&
            var r2 := PerformCreate(r1.value.0, user, today, query, grams, Unreachable);
            r2.Success? &&
            var r3 := PerformDestroy(r2.value, user, n);
            && r3.Success?
            && Stored(r3.value.summaries, SummaryKey(user, today)).calories == 0.0
            && Total(r3.value.entries, SummaryKey(user, today)).calories > 0.0
  {
    var db0 := Db([], [], map[], n);
    var r1 := LogFood(db0, user, Some(query), Reply([f]), today);
    LogOneFreshFood(db0, user, query, f, today);
    assert r1.value.0.entries == [r1.value.1[0]];
    CreateThenDestroyClamps(r1.value.0, user, query, f, today, r1.value.1[0], grams);
  }
}

=== FILE: models.dfy ===
/** The three stored records of the nutrition app (`FoodItem`, `FoodEntry`,
    `DailySummary`), their field validators and uniqueness keys, and the two
    pieces of arithmetic defined on them: scaling an item's per-100 g values
    to a weight, and the calorie consistency check. */
module Models {
  import opened Wrappers
  import opened Nutrients

  /** A user is identified by primary key. */
  type UserId = nat

  /** A calendar day, as a day number; calendar arithmetic is not needed. */
  type Date = int

  /** The error responses a request can end in. */
  datatype ApiError =
    | BadRequest        // HTTP 400, including a serializer ValidationError
    | NotFound          // HTTP 404: no entry with that id for this user
    | BadGateway        // HTTP 502: the Nutritionix request failed and was caught
    | UpstreamFailure   // an uncaught exception from the Nutritionix request
    | IntegrityError    // an insert violated a `unique_together` key

  /** A cached food: per-100 g macros and calories, keyed by
      (`source`, `sourceFoodId`) when it has an external id. */
  datatype FoodItem = FoodItem(
    source: string,
    sourceFoodId: Option<string>,
    name: string,
    servingSize: Option<real>,
    per100: Nutrients)

  /** One logged food: who, which day, how many grams, and a snapshot of the
      macros and calories at logging time. `item` is the position of the
      linked food item in the item store. */
  datatype FoodEntry = FoodEntry(
    id: nat,
    user: UserId,
    date: Date,
    item: Option<nat>,
    name: string,
    weight: real,
    macros: Nutrients,
    source: string,
    sourceFoodId: Option<string>)

  /** The key of a daily summary row: at most one row per (user, date). */
  datatype SummaryKey = SummaryKey(user: UserId, date: Date)

  /** A stored daily summary row with its denormalised totals. */
  datatype DailySummary = DailySummary(user: UserId, date: Date, totals: Nutrients)

  function KeyOf(e: FoodEntry): SummaryKey {
    SummaryKey(e.user, e.date)
  }

  /** The `MinValueValidator(0.0)` bounds on the four per-100 g fields. */
  predicate ValidItem(it: FoodItem) {
    NonNegative(it.per100)
  }

  predicate ValidItems(items: seq<FoodItem>) {
    forall i | 0 <= i < |items| :: ValidItem(items[i])
  }

  /** The field validators of an entry: at least 0.01 g, and non-negative
      macros and calories. */
  predicate ValidEntry(e: FoodEntry) {
    e.weight >= 0.01 && NonNegative(e.macros)
  }

  /** `macros_for_grams`: the item's per-100 g values scaled to `grams`. */
  function MacrosForGrams(it: FoodItem, grams: real): (r: Nutrients)
    ensures r.carbs * 100.0 == it.per100.carbs * grams
    ensures r.protein * 100.0 == it.per100.protein * grams
    ensures r.fat * 100.0 == it.per100.fat * grams
    ensures r.calories * 100.0 == it.per100.calories * grams
  {
    Scale(it.per100, grams / 100.0)
  }

  /** At 100 g the per-100 g values come back unchanged. */
  lemma MacrosAtHundred(it: FoodItem)
    ensures MacrosForGrams(it, 100.0) == it.per100
  {
  }

  /** Scaling is additive in the weight: two portions weigh in as one. */
  lemma MacrosAdditive(it: FoodItem, g1: real, g2: real)
    ensures MacrosForGrams(it, g1 + g2) == Add(MacrosForGrams(it, g1), MacrosForGrams(it, g2))
  {
    var f1, f2 := g1 / 100.0, g2 / 100.0;
    assert (g1 + g2) / 100.0 == f1 + f2;
    var p := it.per100;
    assert p.carbs * (f1 + f2) == p.carbs * f1 + p.carbs * f2;
    assert p.protein * (f1 + f2) == p.protein * f1 + p.protein * f2;
    assert p.fat * (f1 + f2) == p.fat * f1 + p.fat * f2;
    assert p.calories * (f1 + f2) == p.calories * f1 + p.calories * f2;
  }

  /** A valid item yields non-negative amounts for any non-negative weight,
      and more grams never yield less of anything. */
  lemma MacrosMonotone(it: FoodItem, g1: real, g2: real)
    requires ValidItem(it)
    requires 0.0 <= g1 <= g2
    ensures NonNegative(MacrosForGrams(it, g1))
    ensures Le(MacrosForGrams(it, g1), MacrosForGrams(it, g2))
  {
    MacrosAdditive(it, g1, g2 - g1);
    var p := it.per100;
    var d := (g2 - g1) / 100.0;
    assert d >= 0.0;
    assert p.carbs * d >= 0.0 && p.protein * d >= 0.0 && p.fat * d >= 0.0 && p.calories * d >= 0.0;
    var f := g1 / 100.0;
    assert p.carbs * f >= 0.0 && p.protein * f >= 0.0 && p.fat * f >= 0.0 && p.calories * f >= 0.0;
  }

  lemma MacrosNonNegative(it: FoodItem, grams: real)
    ensures ValidItem(it) && grams >= 0.0 ==> NonNegative(MacrosForGrams(it, grams))
  {
    if ValidItem(it) && grams >= 0.0 {
      MacrosMonotone(it, grams, grams);
    }
  }

  /** Kilocalories implied by the macros under the Atwater factors 4/4/9. */
  function Atwater(m: Nutrients): real {
    m.carbs * 4.0 + m.protein * 4.0 + m.fat * 9.0
  }

  function Abs(x: real): real {
    if x < 0.0 then -x else x
  }

  /** The outcome of `FoodEntry.clean`: accepted, or rejected with the
      expected calorie value quoted in the error message. */
  datatype CleanOutcome = Consistent | Inconsistent(expected: real)

  /** `FoodEntry.clean`: the stated calories may differ from the Atwater
      value by at most 0.01 kcal. It only inspects the entry. */
  function Clean(e: FoodEntry): (r: CleanOutcome)
    ensures r.Inconsistent? ==> r.expected == Atwater(e.macros)
  {
    var computed := Atwater(e.macros);
    if Abs(e.macros.calories - computed) > 0.01 then Inconsistent(computed) else Consistent
  }

  /** `clean` accepts exactly the entries whose calories lie within
      0.01 kcal of the Atwater value, on either side. */
  lemma CleanTolerance(e: FoodEntry)
    ensures Clean(e) == Consistent
            <==> Atwater(e.macros) - 0.01 <= e.macros.calories <= Atwater(e.macros) + 0.01
  {
  }

  /** Scaling preserves consistency: when an item's per-100 g calories are
      exactly the Atwater value, an entry snapshot taken at any weight
      passes `clean`. */
  lemma ScaledItemIsClean(it: FoodItem, grams: real, e: FoodEntry)
    requires it.per100.calories == Atwater(it.per100)
    requires e.macros == MacrosForGrams(it, grams)
    ensures Clean(e) == Consistent
  {
    var p := it.per100;
    var f := grams / 100.0;
    assert Atwater(e.macros) == (p.carbs * 4.0 + p.protein * 4.0 + p.fat * 9.0) * f;
  }

  /** Two items share the `unique_together` key (source, source_food_id).
      A missing id is a database NULL, which never collides. */
  predicate SameKey(a: FoodItem, b: FoodItem) {
    a.sourceFoodId.Some? && a.source == b.source && a.sourceFoodId == b.sourceFoodId
  }

  /** At most one item per (source, source_food_id). */
  predicate ItemsUnique(items: seq<FoodItem>) {
    forall i, j | 0 <= i < j < |items| :: !SameKey(items[i], items[j])
  }

  predicate HasKey(it: FoodItem, source: string, id: string) {
    it.source == source && it.sourceFoodId == Some(id)
  }

  predicate KeyTaken(items: seq<FoodItem>, source: string, id: string) {
    exists i | 0 <= i < |items| :: HasKey(items[i], source, id)
  }

  /** `FoodItem.objects.create`: appends the item, unless its key is already
      taken, in which case the database refuses the insert. */
  function InsertItem(items: seq<FoodItem>, it: FoodItem): (r: Result<seq<FoodItem>, ApiError>)
    ensures r.Failure? <==> it.sourceFoodId.Some? && KeyTaken(items, it.source, it.sourceFoodId.value)
    ensures r.Failure? ==> r.error == IntegrityError
    ensures r.Success? ==> r.value == items + [it]
    ensures ItemsUnique(items) && r.Success? ==> ItemsUnique(r.value)
  {
    if it.sourceFoodId.Some? && KeyTaken(items, it.source, it.sourceFoodId.value) then
      Failure(IntegrityError)
    else
      var items' := items + [it];
      assert forall i | 0 <= i < |items| :: items'[i] == items[i];
      assert forall i | 0 <= i < |items| :: !HasKey(items[i], it.source, it.sourceFoodId.GetOr(""))
                                           || it.sourceFoodId.None?;
      Success(items')
  }
}

=== FILE: nutrients.dfy ===
/** The four quantities the tracker records for a food: grams of
    carbohydrate, protein and fat, and kilocalories. The same record holds a
    food item's per-100 g values, an entry's snapshot and a day's totals.
    Quantities are exact reals: the backend's floating-point rounding is not
    modelled. */
module Nutrients {

  datatype Nutrients = Nutrients(carbs: real, protein: real, fat: real, calories: real)

  const Zero := Nutrients(0.0, 0.0, 0.0, 0.0)

  function Add(a: Nutrients, b: Nutrients): Nutrients {
    Nutrients(a.carbs + b.carbs, a.protein + b.protein, a.fat + b.fat, a.calories + b.calories)
  }

  function Sub(a: Nutrients, b: Nutrients): Nutrients {
    Nutrients(a.carbs - b.carbs, a.protein - b.protein, a.fat - b.fat, a.calories - b.calories)
  }

  function Max0(x: real): real {
    if x < 0.0 then 0.0 else x
  }

  /** Field-wise `max(a - b, 0.0)`, the subtraction used when an entry is
      removed from a daily total. */
  function ClampSub(a: Nutrients, b: Nutrients): Nutrients {
    Nutrients(Max0(a.carbs - b.carbs), Max0(a.protein - b.protein),
              Max0(a.fat - b.fat), Max0(a.calories - b.calories))
  }

  function Scale(a: Nutrients, k: real): Nutrients {
    Nutrients(a.carbs * k, a.protein * k, a.fat * k, a.calories * k)
  }

  predicate NonNegative(a: Nutrients) {
    a.carbs >= 0.0 && a.protein >= 0.0 && a.fat >= 0.0 && a.calories >= 0.0
  }

  /** Field-wise `<=`. */
  predicate Le(a: Nutrients, b: Nutrients) {
    a.carbs <= b.carbs && a.protein <= b.protein && a.fat <= b.fat && a.calories <= b.calories
  }

  lemma AddAssociative(a: Nutrients, b: Nutrients, c: Nutrients)
    ensures Add(Add(a, b), c) == Add(a, Add(b, c))
  {
  }

  lemma AddSubSwap(t: Nutrients, a: Nutrients, b: Nutrients)
    ensures Add(t, Sub(b, a)) == Add(Sub(t, a), b)
  {
  }

  lemma AddSubCancel(a: Nutrients, c: Nutrients, b: Nutrients)
    ensures Sub(Add(Add(a, c), b), c) == Add(a, b)
  {
  }

  lemma AddSwapMiddle(a: Nutrients, c: Nutrients, d: Nutrients, b: Nutrients)
    ensures Add(Add(a, d), b) == Add(Sub(Add(Add(a, c), b), c), d)
  {
  }

  /** The clamp only changes the result when the subtrahend exceeds the total. */
  lemma ClampSubExact(a: Nutrients, b: Nutrients)
    requires Le(b, a)
    ensures ClampSub(a, b) == Sub(a, b)
    ensures NonNegative(Sub(a, b))
  {
  }
}

=== FILE: queries.dfy ===
/** The single-row lookups the views run against a table kept in primary
    key order: `.filter(...).first()` and `.get(...)`. */
module Queries {
  import opened Wrappers

  /** The position of the first row satisfying `p`, if any. */
  function FirstWhere<T>(rows: seq<T>, p: T -> bool): (r: Option<nat>)
    ensures r.Some? ==> r.value < |rows| && p(rows[r.value])
    ensures r.Some? ==> forall j | 0 <= j < r.value :: !p(rows[j])
    ensures r.None? <==> forall j | 0 <= j < |rows| :: !p(rows[j])
  {
    if |rows| == 0 then None
    else if p(rows[0]) then Some(0)
    else match FirstWhere(rows[1..], p)
      case None => None
      case Some(k) => Some(k + 1)
  }
}

=== FILE: registration.dfy ===
/** `register_user`: a guard-then-insert over the set of stored usernames.
    `create_user` stores the NFKC normal form of the username, while the
    guard looks the raw username up; the normalisation is a parameter.
    Password hashing is not modelled; only the presence of a password
    matters. */
module Registration {
  import opened Wrappers

  /** The response of `register_user`: 201, 400 with one of two messages,
      or the uncaught IntegrityError of the unique `username` column (500). */
  datatype Registered = Created | MissingCredentials | UsernameTaken | DuplicateStored

  /** A request field that is present and not empty. */
  predicate Filled(field: Option<string>) {
    field.Some? && field.value != ""
  }

  /** Reject a missing or empty username or password, then a username that
      is already stored as given; otherwise `create_user` inserts the
      normalised username, which the unique column refuses when that form
      is already stored. */
  function Register(users: set<string>, username: Option<string>, password: Option<string>,
                    normalize: string -> string): (r: (Registered, set<string>))
    ensures r.0 == Created <==>
              Filled(username) && Filled(password) && username.value !in users && normalize(username.value) !in users
    ensures r.0 == Created ==> r.1 == users + {normalize(username.value)} && |r.1| == |users| + 1
    ensures r.0 != Created ==> r.1 == users
    ensures r.0 == UsernameTaken <==> Filled(username) && Filled(password) && username.value in users
    ensures r.0 == DuplicateStored <==>
              Filled(username) && Filled(password) && username.value !in users && normalize(username.value) in users
  {
    if !Filled(username) || !Filled(password) then (MissingCredentials, users)
    else if username.value in users then (UsernameTaken, users)
    else if normalize(username.value) in users then (DuplicateStored, users)
    else (Created, users + {normalize(username.value)})
  }

  /** Registering the same username again, with any password, is refused
      and changes nothing; when the username is already in normal form the
      refusal is the 400 "already taken". */
  lemma RegisterTwiceRefused(users: set<string>, name: string, p1: string, p2: string, normalize: string -> string)
    requires Register(users, Some(name), Some(p1), normalize).0 == Created
    requires p2 != ""
    ensures var users' := Register(users, Some(name), Some(p1), normalize).1;
            && Register(users', Some(name), Some(p2), normalize).0 != Created
            && Register(users', Some(name), Some(p2), normalize).1 == users'
            && (normalize(name) == name ==> Register(users', Some(name), Some(p2), normalize) == (UsernameTaken, users'))
  {
  }

  /** "ｆｏｏ" in full-width letters, which NFKC maps to "foo". */
  const FullWidthFoo := "\U{FF46}\U{FF4F}\U{FF4F}"

  /** With "foo" stored, registering its full-width spelling passes the
      guard and then fails in the database with a 500, where "already
      taken" (400) is evidently meant. The normalised guard answers 400. */
  lemma FullWidthNameFails(normalize: string -> string)
    requires normalize(FullWidthFoo) == "foo"
    ensures Register({"foo"}, Some(FullWidthFoo), Some("pw"), normalize) == (DuplicateStored, {"foo"})
    ensures RegisterNormalized({"foo"}, Some(FullWidthFoo), Some("pw"), normalize) == (UsernameTaken, {"foo"})
  {
    assert FullWidthFoo != "foo" by {
      assert FullWidthFoo[0] != "foo"[0];
    }
  }

  /** `register_user` with the guard applied to the normalised username,
      the form `create_user` stores: the database never refuses the insert. */
  function RegisterNormalized(users: set<string>, username: Option<string>, password: Option<string>,
                              normalize: string -> string): (r: (Registered, set<string>))
    ensures r.0 != DuplicateStored
    ensures r.0 == Created <==> Filled(username) && Filled(password) && normalize(username.value) !in users
    ensures r.0 == Created ==> r.1 == users + {normalize(username.value)} && |r.1| == |users| + 1
    ensures r.0 != Created ==> r.1 == users
    ensures r.0 == UsernameTaken <==> Filled(username) && Filled(password) && normalize(username.value) in users
    ensures Filled(username) && Filled(password) && normalize(username.value) == username.value ==>
              r == Register(users, username, password, normalize)
  {
    if !Filled(username) || !Filled(password) then (MissingCredentials, users)
    else if normalize(username.value) in users then (UsernameTaken, users)
    else (Created, users + {normalize(username.value)})
  }
}

=== FILE: resolution.dfy ===
/** Turning a food request into a stored item and entry: the local lookup
    and create-from-Nutritionix path of `FoodEntrySerializer.create`, and
    the per-food get-or-create loop of `log_food`. The Nutritionix HTTP call
    itself is not modelled: its outcome is an input. */
module Resolution {
  import opened Wrappers
  import opened Text
  import opened Nutrients
  import opened Models
  import opened Queries

  const NutritionixSource := "nutritionix"

  /** How the `tag_id` key of a reply element arrived. `create` tells an
      absent key from a null one; `log_food` does not. */
  datatype TagField = Absent | Null | TagText(text: string)

  /** One element of the `foods` array of a Nutritionix reply.
      `foodName` is "" when the key is absent, null or empty (every one of
      these falls back to the query); `servingWeight` is None when absent or
      null; an absent nutrient reads as 0. */
  datatype NutritionixFood = NutritionixFood(
    foodName: string,
    tagId: TagField,
    servingWeight: Option<real>,
    calories: real,
    protein: real,
    carbs: real,
    fat: real)

  /** The outcome of the POST to Nutritionix: a transport or HTTP error, or
      the `foods` of the JSON reply (empty when the key is missing). */
  datatype Lookup = Unreachable | Reply(foods: seq<NutritionixFood>)

  /** `float(serving_weight_grams or 100)`: a missing or zero weight reads
      as 100 g. */
  function ServingWeight(f: NutritionixFood): (w: real)
    ensures w != 0.0
    ensures f.servingWeight.None? || f.servingWeight.value == 0.0 ==> w == 100.0
    ensures f.servingWeight.Some? && f.servingWeight.value != 0.0 ==> w == f.servingWeight.value
  {
    if f.servingWeight.Some? && f.servingWeight.value != 0.0 then f.servingWeight.value else 100.0
  }

  /** The nutrients Nutritionix reports for one serving. */
  function Reported(f: NutritionixFood): Nutrients {
    Nutrients(f.carbs, f.protein, f.fat, f.calories)
  }

  /** The per-100 g values stored for a new item: each reported value
      times 100 / serving weight. */
  function Per100(f: NutritionixFood): Nutrients {
    Scale(Reported(f), 100.0 / ServingWeight(f))
  }

  function NameOrQuery(f: NutritionixFood, query: string): string {
    if f.foodName != "" then f.foodName else query
  }

  /** A plausible reply element: nothing negative. */
  predicate ValidFood(f: NutritionixFood) {
    NonNegative(Reported(f)) && (f.servingWeight.None? || f.servingWeight.value >= 0.0)
  }

  predicate ValidLookup(l: Lookup) {
    l.Reply? ==> forall i | 0 <= i < |l.foods| :: ValidFood(l.foods[i])
  }

  /** Normalising to per-100 g and scaling back to the serving weight
      returns exactly the reported nutrients. */
  lemma Per100RoundTrip(f: NutritionixFood, it: FoodItem)
    requires it.per100 == Per100(f)
    ensures MacrosForGrams(it, ServingWeight(f)) == Reported(f)
  {
    var w := ServingWeight(f);
    var up, down := 100.0 / w, w / 100.0;
    assert up * down == 1.0;
    var v := Reported(f);
    assert (v.carbs * up) * down == v.carbs * (up * down);
    assert (v.protein * up) * down == v.protein * (up * down);
    assert (v.fat * up) * down == v.fat * (up * down);
    assert (v.calories * up) * down == v.calories * (up * down);
  }

  /** For any amount, an item built from a reply element yields the reported
      nutrients in the proportion amount / serving weight. */
  lemma Per100Scaling(f: NutritionixFood, it: FoodItem, grams: real)
    requires it.per100 == Per100(f)
    ensures MacrosForGrams(it, grams) == Scale(Reported(f), grams / ServingWeight(f))
  {
    var w := ServingWeight(f);
    var up, down := 100.0 / w, grams / 100.0;
    assert up * down == grams / w;
    var v := Reported(f);
    assert (v.carbs * up) * down == v.carbs * (up * down);
    assert (v.protein * up) * down == v.protein * (up * down);
    assert (v.fat * up) * down == v.fat * (up * down);
    assert (v.calories * up) * down == v.calories * (up * down);
  }

  lemma ValidFoodPer100(f: NutritionixFood)
    ensures ValidFood(f) ==> NonNegative(Per100(f))
  {
    var k := 100.0 / ServingWeight(f);
    assert ValidFood(f) ==> k > 0.0;
    var v := Reported(f);
    assert ValidFood(f) ==> v.carbs * k >= 0.0 && v.protein * k >= 0.0 && v.fat * k >= 0.0 && v.calories * k >= 0.0;
  }

  /** The entry stored for `grams` of the item at position `i`: the item's
      name and its macros scaled to `grams`. */
  function EntryFor(id: nat, user: UserId, date: Date, items: seq<FoodItem>, i: nat, grams: real,
                    source: string, sourceFoodId: Option<string>): FoodEntry
    requires i < |items|
  {
    FoodEntry(id, user, date, Some(i), items[i].name, grams, MacrosForGrams(items[i], grams), source, sourceFoodId)
  }

  /** `e` is the snapshot of `grams` of an item of `items`. */
  predicate EntryFromStore(items: seq<FoodItem>, e: FoodEntry, id: nat, user: UserId, date: Date, grams: real) {
    && e.id == id && e.user == user && e.date == date && e.weight == grams
    && e.item.Some? && e.item.value < |items|
    && e.name == items[e.item.value].name
    && e.macros == MacrosForGrams(items[e.item.value], grams)
  }

  /** `FoodItem.objects.filter(name__icontains=food).first()`. */
  function LocalMatch(items: seq<FoodItem>, food: string): (r: Option<nat>)
    ensures r.None? <==> forall j | 0 <= j < |items| :: !ContainsIgnoreCase(items[j].name, food)
    ensures r.Some? ==>
              && r.value < |items| && ContainsIgnoreCase(items[r.value].name, food)
              && forall j | 0 <= j < r.value :: !ContainsIgnoreCase(items[j].name, food)
  {
    FirstWhere(items, (it: FoodItem) => ContainsIgnoreCase(it.name, food))
  }

  /** The `source_food_id` `create` stores: `f.get("tag_id", "")`, so an
      absent key gives "" while an explicit null stays NULL. */
  function CreateTag(f: NutritionixFood): Option<string> {
    match f.tagId
    case Absent => Some("")
    case Null => None
    case TagText(t) => Some(t)
  }

  /** The item `create` builds from the first reply element: keyed by the
      tag as `create` reads it, named after the food or the query, and with
      per-100 g values that give back the reported serving. */
  function ItemFromFirstFood(f: NutritionixFood, food: string): (it: FoodItem)
    ensures it.source == NutritionixSource && it.sourceFoodId == CreateTag(f)
    ensures it.name == (if f.foodName != "" then f.foodName else food)
    ensures MacrosForGrams(it, ServingWeight(f)) == Reported(f)
  {
    var it := FoodItem(NutritionixSource, CreateTag(f), NameOrQuery(f, food), None, Per100(f));
    Per100RoundTrip(f, it);
    it
  }

  /** `FoodEntrySerializer.create`: the first local item whose name contains
      the query, else an item made from the first Nutritionix food; then an
      entry of `amount` grams of it. Returns the item store and the entry. */
  function SerializerCreate(items: seq<FoodItem>, id: nat, user: UserId, date: Date, food: string,
                            amount: real, lookup: Lookup): (r: Result<(seq<FoodItem>, FoodEntry), ApiError>)
    ensures LocalMatch(items, food).Some? ==>
              r.Success? && r.value.0 == items && r.value.1.item == LocalMatch(items, food)
    ensures LocalMatch(items, food).None? && lookup.Unreachable? ==> r == Failure(UpstreamFailure)
    ensures LocalMatch(items, food).None? && lookup.Reply? && |lookup.foods| == 0 ==> r == Failure(BadRequest)
    ensures r.Success? ==> EntryFromStore(r.value.0, r.value.1, id, user, date, amount)
    ensures r.Success? && r.value.0 != items ==>
              lookup.Reply? && |lookup.foods| > 0
              && r.value.0 == items + [ItemFromFirstFood(lookup.foods[0], food)]
              && r.value.1.item == Some(|items|)
    ensures ItemsUnique(items) && r.Success? ==> ItemsUnique(r.value.0)
    ensures LocalMatch(items, food).None? && lookup.Reply? && |lookup.foods| > 0 ==>
              var tag := CreateTag(lookup.foods[0]);
              && (r.Failure? <==> tag.Some? && KeyTaken(items, NutritionixSource, tag.value))
              && (r.Failure? ==> r.error == IntegrityError)
              && (r.Success? ==> r.value.0 == items + [ItemFromFirstFood(lookup.foods[0], food)])
  {
    match LocalMatch(items, food)
    case Some(i) => Success((items, EntryFor(id, user, date, items, i, amount, "", None)))
    case None =>
      match lookup
      case Unreachable => Failure(UpstreamFailure)
      case Reply(foods) =>
        if |foods| == 0 then Failure(BadRequest)
        else
          var it := ItemFromFirstFood(foods[0], food);
          match InsertItem(items, it)
          case Failure(e) => Failure(e)
          case Success(items') => Success((items', EntryFor(id, user, date, items', |items|, amount, "", None)))
  }

  /** With a local match, the Nutritionix outcome plays no part: no fetch
      is needed. */
  lemma CreateIgnoresLookupWhenLocal(items: seq<FoodItem>, id: nat, user: UserId, date: Date, food: string,
                                     amount: real, l1: Lookup, l2: Lookup)
    requires LocalMatch(items, food).Some?
    ensures SerializerCreate(items, id, user, date, food, amount, l1)
            == SerializerCreate(items, id, user, date, food, amount, l2)
  {
  }

  /** When the item comes from Nutritionix, the entry carries the reported
      nutrients scaled by amount / serving weight. */
  lemma CreateFromFirstFood(items: seq<FoodItem>, id: nat, user: UserId, date: Date, food: string,
                            amount: real, lookup: Lookup)
    requires LocalMatch(items, food).None?
    requires SerializerCreate(items, id, user, date, food, amount, lookup).Success?
    ensures lookup.Reply? && |lookup.foods| > 0
    ensures var e := SerializerCreate(items, id, user, date, food, amount, lookup).value.1;
            e.macros == Scale(Reported(lookup.foods[0]), amount / ServingWeight(lookup.foods[0]))
  {
    var r := SerializerCreate(items, id, user, date, food, amount, lookup);
    var f := lookup.foods[0];
    Per100Scaling(f, ItemFromFirstFood(f, food), amount);
  }

  /** Valid items and a valid reply give a non-negative entry for a
      non-negative amount, and the store stays valid. */
  lemma CreatedEntryNonNegative(items: seq<FoodItem>, id: nat, user: UserId, date: Date, food: string,
                                amount: real, lookup: Lookup)
    ensures var r := SerializerCreate(items, id, user, date, food, amount, lookup);
            ValidItems(items) && ValidLookup(lookup) && amount >= 0.0 && r.Success? ==>
              NonNegative(r.value.1.macros) && ValidItems(r.value.0)
  {
    var r := SerializerCreate(items, id, user, date, food, amount, lookup);
    if ValidItems(items) && ValidLookup(lookup) && amount >= 0.0 && r.Success? {
      var (items', e) := r.value;
      if items' != items {
        ValidFoodPer100(lookup.foods[0]);
        assert items'[|items|] == ItemFromFirstFood(lookup.foods[0], food);
      }
      assert ValidItems(items');
      MacrosMonotone(items'[e.item.value], amount, amount);
    }
  }

  /** The tag `log_food` reads: `(tag_id or "").strip()`, "" when the key
      is absent or null. */
  function TagOf(f: NutritionixFood): string {
    match f.tagId
    case TagText(t) => Strip(t)
    case _ => ""
  }

  /** The name `log_food` matches on: stripped, then lower-cased. */
  function NormalizedName(f: NutritionixFood, query: string): string {
    Lower(Strip(NameOrQuery(f, query)))
  }

  /** The item `log_food` creates for `f` when it finds none to reuse. */
  function LoggedItem(f: NutritionixFood, query: string): (it: FoodItem)
    ensures it.source == NutritionixSource
    ensures TagOf(f) != "" ==> HasKey(it, NutritionixSource, TagOf(f))
    ensures TagOf(f) == "" ==> it.sourceFoodId.None?
    ensures it.name == (if f.foodName != "" then f.foodName else query)
    ensures MacrosForGrams(it, ServingWeight(f)) == Reported(f)
  {
    var it := FoodItem(NutritionixSource, if TagOf(f) != "" then Some(TagOf(f)) else None, NameOrQuery(f, query), None, Per100(f));
    Per100RoundTrip(f, it);
    it
  }

  /** The item `log_food` reuses for a food without a tag: a Nutritionix
      item whose name equals the normalised name, ignoring case. */
  predicate NameMatch(it: FoodItem, f: NutritionixFood, query: string) {
    it.source == NutritionixSource && EqualsIgnoreCase(it.name, NormalizedName(f, query))
  }

  /** The item lookup of one `log_food` iteration: with a tag, get-or-create
      by (nutritionix, tag); without, the first case-insensitive name match,
      created when there is none. Returns the store and the item's position. */
  function ResolveLogged(items: seq<FoodItem>, f: NutritionixFood, query: string): (res: (seq<FoodItem>, nat))
    ensures res.1 < |res.0|
    ensures res.0 == items || (res.0 == items + [LoggedItem(f, query)] && res.1 == |items|)
    ensures TagOf(f) != "" ==> HasKey(res.0[res.1], NutritionixSource, TagOf(f))
    ensures TagOf(f) != "" ==> (res.0 == items <==> KeyTaken(items, NutritionixSource, TagOf(f)))
    ensures TagOf(f) == "" ==> (res.0 == items <==> exists j | 0 <= j < |items| :: NameMatch(items[j], f, query))
    ensures TagOf(f) == "" && res.0 == items ==>
              NameMatch(items[res.1], f, query) && forall j | 0 <= j < res.1 :: !NameMatch(items[j], f, query)
    ensures ItemsUnique(items) ==> ItemsUnique(res.0)
    ensures ValidItems(items) && ValidFood(f) ==> ValidItems(res.0)
  {
    var tag := TagOf(f);
    var found :=
      if tag != "" then FirstWhere(items, (it: FoodItem) => HasKey(it, NutritionixSource, tag))
      else FirstWhere(items, (it: FoodItem) => NameMatch(it, f, query));
    match found
    case Some(i) => (items, i)
    case None =>
      ValidFoodPer100(f);
      assert tag != "" ==> !KeyTaken(items, NutritionixSource, tag);
      (items + [LoggedItem(f, query)], |items|)
  }

  /** One `log_food` iteration: resolve the item, then store an entry of
      one serving of it, dated `today`. */
  function LogOne(items: seq<FoodItem>, f: NutritionixFood, query: string, user: UserId, today: Date, id: nat)
    : (res: (seq<FoodItem>, FoodEntry))
    ensures EntryFromStore(res.0, res.1, id, user, today, ServingWeight(f))
    ensures res.1.source == NutritionixSource
    ensures res.0 == items || res.0 == items + [LoggedItem(f, query)]
    ensures res.0 != items ==> res.1.macros == Reported(f)
    ensures ItemsUnique(items) ==> ItemsUnique(res.0)
    ensures ValidItems(items) && ValidFood(f) ==> ValidItems(res.0)
    ensures res.0 == ResolveLogged(items, f, query).0 && res.1.item == Some(ResolveLogged(items, f, query).1)
    ensures TagOf(f) != "" ==> res.1.sourceFoodId == Some(TagOf(f))
    ensures TagOf(f) == "" ==> res.1.sourceFoodId.None?
  {
    var (items', i) := ResolveLogged(items, f, query);
    var e := EntryFor(id, user, today, items', i, ServingWeight(f), NutritionixSource,
                      if TagOf(f) != "" then Some(TagOf(f)) else None);
    (items', e)
  }

  lemma PrefixTrans(a: seq<FoodItem>, b: seq<FoodItem>, c: seq<FoodItem>)
    requires |a| <= |b| && b[..|a|] == a
    requires |b| <= |c| && c[..|b|] == b
    ensures |a| <= |c| && c[..|a|] == a
  {
    assert c[..|a|] == c[..|b|][..|a|];
  }

  /** The `for food in data.get("foods", [])` loop: one entry per food, in
      order, with consecutive ids from `nextId`. */
  function LogFoods(items: seq<FoodItem>, foods: seq<NutritionixFood>, query: string, user: UserId,
                    today: Date, nextId: nat): (res: (seq<FoodItem>, seq<FoodEntry>))
    ensures |res.1| == |foods|
    ensures forall k | 0 <= k < |foods| ::
              && res.1[k].id == nextId + k && res.1[k].user == user && res.1[k].date == today
              && res.1[k].weight == ServingWeight(foods[k]) && res.1[k].source == NutritionixSource
    ensures |items| <= |res.0| && res.0[..|items|] == items
    ensures ItemsUnique(items) ==> ItemsUnique(res.0)
    decreases |foods|
  {
    if |foods| == 0 then (items, [])
    else
      var (items1, e) := LogOne(items, foods[0], query, user, today, nextId);
      var (items2, rest) := LogFoods(items1, foods[1..], query, user, today, nextId + 1);
      PrefixTrans(items, items1, items2);
      var es := [e] + rest;
      assert forall k | 0 < k < |foods| :: es[k] == rest[k - 1] && foods[k] == foods[1..][k - 1];
      (items2, es)
  }

  lemma ValidFoodWeight(f: NutritionixFood)
    ensures ValidFood(f) ==> ServingWeight(f) > 0.0
  {
  }

  /** Over valid items and a valid reply the loop keeps the items valid and
      stores non-negative snapshots only. */
  lemma {:induction false} LogFoodsValid(items: seq<FoodItem>, foods: seq<NutritionixFood>, query: string,
                                         user: UserId, today: Date, nextId: nat)
    requires ValidItems(items)
    requires forall k | 0 <= k < |foods| :: ValidFood(foods[k])
    ensures var res := LogFoods(items, foods, query, user, today, nextId);
            ValidItems(res.0) && forall k | 0 <= k < |foods| :: NonNegative(res.1[k].macros)
    decreases |foods|
  {
    if |foods| > 0 {
      var (items1, e) := LogOne(items, foods[0], query, user, today, nextId);
      LogFoodsValid(items1, foods[1..], query, user, today, nextId + 1);
      LogFoodsUnfold(items, foods, query, user, today, nextId);
      ValidFoodWeight(foods[0]);
      MacrosNonNegative(items1[e.item.value], e.weight);
      var res := LogFoods(items, foods, query, user, today, nextId);
      var rest := LogFoods(items1, foods[1..], query, user, today, nextId + 1).1;
      assert forall k | 0 < k < |foods| :: res.1[k] == rest[k - 1];
    }
  }

  lemma LogFoodsUnfold(items: seq<FoodItem>, foods: seq<NutritionixFood>, query: string,
                       user: UserId, today: Date, nextId: nat)
    requires |foods| > 0
    ensures var step := LogOne(items, foods[0], query, user, today, nextId);
            var rest := LogFoods(step.0, foods[1..], query, user, today, nextId + 1);
            LogFoods(items, foods, query, user, today, nextId) == (rest.0, [step.1] + rest.1)
  {
  }

  lemma LogFoodsPrefixFirst(items: seq<FoodItem>, foods: seq<NutritionixFood>, query: string,
                            user: UserId, today: Date, nextId: nat)
    requires 0 < |foods|
    ensures var step := LogOne(items, foods[0], query, user, today, nextId);
            && LogFoods(items, foods, query, user, today, nextId).1[0] == step.1
            && LogFoods(items, foods[..1], query, user, today, nextId).0 == step.0
  {
    LogFoodsUnfold(items, foods, query, user, today, nextId);
    LogFoodsUnfold(items, foods[..1], query, user, today, nextId);
    assert foods[..1][0] == foods[0];
    assert foods[..1][1..] == [];
  }

  /** Entry `k > 0` of the loop is entry `k - 1` of the loop over the
      remaining foods, run on the store the first iteration left. */
  lemma LogFoodsEntryShift(items: seq<FoodItem>, foods: seq<NutritionixFood>, query: string,
                           user: UserId, today: Date, nextId: nat, k: nat)
    requires 0 < k < |foods|
    ensures var items1 := LogOne(items, foods[0], query, user, today, nextId).0;
            LogFoods(items, foods, query, user, today, nextId).1[k]
            == LogFoods(items1, foods[1..], query, user, today, nextId + 1).1[k - 1]
  {
    LogFoodsUnfold(items, foods, query, user, today, nextId);
  }

  /** The store after the first `k > 0` foods is the store after the next
      `k - 1`, run on the store the first iteration left. */
  lemma LogFoodsStoreShift(items: seq<FoodItem>, foods: seq<NutritionixFood>, query: string,
                           user: UserId, today: Date, nextId: nat, k: nat)
    requires 0 < k <= |foods|
    ensures var items1 := LogOne(items, foods[0], query, user, today, nextId).0;
            LogFoods(items, foods[..k], query, user, today, nextId).0
            == LogFoods(items1, foods[1..][..k - 1], query, user, today, nextId + 1).0
  {
    LogFoodsUnfold(items, foods[..k], query, user, today, nextId);
    assert foods[..k][0] == foods[0];
    assert foods[..k][1..] == foods[1..][..k - 1];
  }

  /** What `LogFoodsPrefix` states about position `k` of the loop. */
  predicate PrefixStep(items: seq<FoodItem>, foods: seq<NutritionixFood>, query: string,
                       user: UserId, today: Date, nextId: nat, k: nat)
    requires k < |foods|
  {
    var before := LogFoods(items, foods[..k], query, user, today, nextId).0;
    var step := LogOne(before, foods[k], query, user, today, nextId + k);
    && LogFoods(items, foods, query, user, today, nextId).1[k] == step.1
    && LogFoods(items, foods[..k + 1], query, user, today, nextId).0 == step.0
  }

  /** The statement at position `k > 0` follows from the statement at
      `k - 1` about the loop over the remaining foods. */
  lemma PrefixStepShift(items: seq<FoodItem>, foods: seq<NutritionixFood>, query: string,
                        user: UserId, today: Date, nextId: nat, k: nat)
    requires 0 < k < |foods|
    requires PrefixStep(LogOne(items, foods[0], query, user, today, nextId).0, foods[1..],
                        query, user, today, nextId + 1, k - 1)
    ensures PrefixStep(items, foods, query, user, today, nextId, k)
  {
    LogFoodsEntryShift(items, foods, query, user, today, nextId, k);
    LogFoodsStoreShift(items, foods, query, user, today, nextId, k);
    LogFoodsStoreShift(items, foods, query, user, today, nextId, k + 1);
    assert foods[1..][k - 1] == foods[k];
  }

  lemma PrefixStepZero(items: seq<FoodItem>, foods: seq<NutritionixFood>, query: string,
                       user: UserId, today: Date, nextId: nat)
    requires 0 < |foods|
    ensures PrefixStep(items, foods, query, user, today, nextId, 0)
  {
    assert foods[..0] == [];
    LogFoodsPrefixFirst(items, foods, query, user, today, nextId);
  }

  /** Entry `k` of the loop is what one iteration makes of food `k`, given
      the store as the first `k` iterations left it. */
  lemma {:induction false} LogFoodsPrefix(items: seq<FoodItem>, foods: seq<NutritionixFood>, query: string,
                                          user: UserId, today: Date, nextId: nat, k: nat)
    requires k < |foods|
    ensures PrefixStep(items, foods, query, user, today, nextId, k)
    decreases k, 1
  {
    if k == 0 {
      PrefixStepZero(items, foods, query, user, today, nextId);
    } else {
      LogFoodsPrefixSucc(items, foods, query, user, today, nextId, k);
    }
  }

  lemma {:induction false} LogFoodsPrefixSucc(items: seq<FoodItem>, foods: seq<NutritionixFood>, query: string,
                                              user: UserId, today: Date, nextId: nat, k: nat)
    requires 0 < k < |foods|
    ensures PrefixStep(items, foods, query, user, today, nextId, k)
    decreases k, 0
  {
    var items1 := LogOne(items, foods[0], query, user, today, nextId).0;
    LogFoodsPrefix(items1, foods[1..], query, user, today, nextId + 1, k - 1);
    PrefixStepShift(items, foods, query, user, today, nextId, k);
  }

  /** An entry whose item was created by its own iteration carries exactly
      the nutrients Nutritionix reported for that food. */
  lemma LogFoodsFreshEntriesMatchReply(items: seq<FoodItem>, foods: seq<NutritionixFood>, query: string,
                                       user: UserId, today: Date, nextId: nat, k: nat)
    requires k < |foods|
    requires LogFoods(items, foods[..k + 1], query, user, today, nextId).0
             != LogFoods(items, foods[..k], query, user, today, nextId).0
    ensures LogFoods(items, foods, query, user, today, nextId).1[k].macros == Reported(foods[k])
  {
    LogFoodsPrefix(items, foods, query, user, today, nextId, k);
  }

  /** `SerializerCreate` with the weight validator of `FoodEntry.weight_g`
      (at least 0.01 g) applied to `amount_g` first. */
  function SerializerCreateChecked(items: seq<FoodItem>, id: nat, user: UserId, date: Date, food: string,
                                   amount: real, lookup: Lookup): (r: Result<(seq<FoodItem>, FoodEntry), ApiError>)
    ensures amount < 0.01 ==> r == Failure(BadRequest)
    ensures amount >= 0.01 ==> r == SerializerCreate(items, id, user, date, food, amount, lookup)
    ensures ValidItems(items) && ValidLookup(lookup) && r.Success? ==>
              ValidEntry(r.value.1) && ValidItems(r.value.0)
  {
    if amount < 0.01 then Failure(BadRequest)
    else
      CreatedEntryNonNegative(items, id, user, date, food, amount, lookup);
      SerializerCreate(items, id, user, date, food, amount, lookup)
  }

  /** A negative `amount_g` is accepted and stored as a negative weight
      with negative macros, against the entry's field validators. */
  lemma NegativeAmountAccepted()
    ensures var apple := FoodItem(NutritionixSource, Some("1"), "apple", None, Nutrients(14.0, 0.0, 0.0, 52.0));
            var r := SerializerCreate([apple], 1, 7, 100, "apple", -100.0, Unreachable);
            r.Success? && r.value.1.weight == -100.0 && r.value.1.macros.calories == -52.0
            && !ValidEntry(r.value.1)
  {
    var apple := FoodItem(NutritionixSource, Some("1"), "apple", None, Nutrients(14.0, 0.0, 0.0, 52.0));
    assert InfixAt(Lower("apple"), Lower(apple.name), 0);
    assert LocalMatch([apple], "apple") == Some(0);
  }

  /** `create` reaches Nutritionix, gets a food, and the (nutritionix,
      tag_id) key of the item it would insert is already stored. */
  predicate StoredTagHit(items: seq<FoodItem>, food: string, lookup: Lookup) {
    && LocalMatch(items, food).None? && lookup.Reply? && |lookup.foods| > 0
    && CreateTag(lookup.foods[0]).Some?
    && KeyTaken(items, NutritionixSource, CreateTag(lookup.foods[0]).value)
  }

  /** `SerializerCreate` with the Nutritionix item looked up by its key
      before inserting: an existing (nutritionix, tag_id) item is reused. */
  function SerializerCreateByKey(items: seq<FoodItem>, id: nat, user: UserId, date: Date, food: string,
                                 amount: real, lookup: Lookup): (r: Result<(seq<FoodItem>, FoodEntry), ApiError>)
    ensures r.Failure? ==> r.error != IntegrityError
    ensures r.Success? ==> EntryFromStore(r.value.0, r.value.1, id, user, date, amount)
    ensures ItemsUnique(items) && r.Success? ==> ItemsUnique(r.value.0)
    ensures LocalMatch(items, food).Some? ==> r == SerializerCreate(items, id, user, date, food, amount, lookup)
    ensures StoredTagHit(items, food, lookup) ==>
              var tag := CreateTag(lookup.foods[0]).value;
              && r.Success? && r.value.0 == items
              && HasKey(items[r.value.1.item.value], NutritionixSource, tag)
              && forall j | 0 <= j < r.value.1.item.value :: !HasKey(items[j], NutritionixSource, tag)
    ensures !StoredTagHit(items, food, lookup) ==> r == SerializerCreate(items, id, user, date, food, amount, lookup)
  {
    match LocalMatch(items, food)
    case Some(i) => Success((items, EntryFor(id, user, date, items, i, amount, "", None)))
    case None =>
      match lookup
      case Unreachable => Failure(UpstreamFailure)
      case Reply(foods) =>
        if |foods| == 0 then Failure(BadRequest)
        else
          var it := ItemFromFirstFood(foods[0], food);
          var stored :=
            if it.sourceFoodId.None? then None
            else FirstWhere(items, (x: FoodItem) => HasKey(x, NutritionixSource, it.sourceFoodId.value));
          match stored
          case Some(j) => Success((items, EntryFor(id, user, date, items, j, amount, "", None)))
          case None =>
            assert it.sourceFoodId.Some? ==> !KeyTaken(items, NutritionixSource, it.sourceFoodId.value);
            var items' := InsertItem(items, it).value;
            Success((items', EntryFor(id, user, date, items', |items|, amount, "", None)))
  }

  /** When a Nutritionix food's tag is already stored under a name that does
      not contain the query, `create` tries to insert a second item with the
      same key and the database refuses it; the keyed variant reuses the
      stored item. */
  lemma TagCollisionRejected()
    ensures var stored := FoodItem(NutritionixSource, Some("t1"), "apple", None, Nutrients(14.0, 0.0, 0.0, 52.0));
            var reply := Reply([NutritionixFood("apple", TagText("t1"), Some(182.0), 95.0, 0.5, 25.0, 0.3)]);
            && SerializerCreate([stored], 1, 7, 100, "apples", 150.0, reply) == Failure(IntegrityError)
            && SerializerCreateByKey([stored], 1, 7, 100, "apples", 150.0, reply).Success?
  {
    var stored := FoodItem(NutritionixSource, Some("t1"), "apple", None, Nutrients(14.0, 0.0, 0.0, 52.0));
    assert !ContainsIgnoreCase(stored.name, "apples");
    assert LocalMatch([stored], "apples") == None;
    var f := NutritionixFood("apple", TagText("t1"), Some(182.0), 95.0, 0.5, 25.0, 0.3);
    assert CreateTag(f) == Some("t1");
    assert HasKey([stored][0], NutritionixSource, "t1");
    assert KeyTaken([stored], NutritionixSource, "t1");
  }
}

=== FILE: summaries.dfy ===
/** The denormalised daily totals kept by the entry endpoints
    (`_update_summary_on_create/_update/_delete`), and the from-scratch
    sums they are meant to agree with. */
module Summaries {
  import opened Nutrients
  import opened Models

  /** The `DailySummary` table: one row of totals per (user, date). */
  type SummaryTable = map<SummaryKey, Nutrients>

  /** A row's totals, or zero when there is no row. */
  function Stored(s: SummaryTable, k: SummaryKey): Nutrients {
    if k in s then s[k] else Zero
  }

  /** Row `k` is present in both tables or in neither, with the same totals. */
  predicate SameRow(s: SummaryTable, s': SummaryTable, k: SummaryKey) {
    (k in s <==> k in s') && (k in s ==> s[k] == s'[k])
  }

  /** `_update_summary_on_create`: get-or-create the entry's row at zero,
      then add the entry's four values to it. */
  function OnCreate(s: SummaryTable, e: FoodEntry): (s': SummaryTable)
    ensures KeyOf(e) in s'
    ensures s'[KeyOf(e)] == Add(Stored(s, KeyOf(e)), e.macros)
    ensures forall k | k != KeyOf(e) :: SameRow(s, s', k)
  {
    s[KeyOf(e) := Add(Stored(s, KeyOf(e)), e.macros)]
  }

  /** `_update_summary_on_delete`: subtract the entry's values from its row,
      clamping each total at zero; without a row nothing happens. */
  function OnDelete(s: SummaryTable, e: FoodEntry): (s': SummaryTable)
    ensures KeyOf(e) !in s ==> s' == s
    ensures KeyOf(e) in s ==> KeyOf(e) in s' && s'[KeyOf(e)] == ClampSub(s[KeyOf(e)], e.macros)
    ensures KeyOf(e) in s ==> NonNegative(s'[KeyOf(e)])
    ensures forall k | k != KeyOf(e) :: SameRow(s, s', k)
  {
    var k := KeyOf(e);
    if k !in s then s else s[k := ClampSub(s[k], e.macros)]
  }

  /** `_update_summary_on_update`: a move to another date is a delete from
      the old row followed by a create on the new one; on the same date the
      row (created at zero if missing) receives the differences
      new minus old, without any clamp. */
  function OnUpdate(s: SummaryTable, previous: FoodEntry, updated: FoodEntry): (s': SummaryTable)
    ensures previous.date == updated.date ==>
              KeyOf(updated) in s'
              && s'[KeyOf(updated)] == Add(Stored(s, KeyOf(updated)), Sub(updated.macros, previous.macros))
    ensures forall k | k != KeyOf(previous) && k != KeyOf(updated) :: SameRow(s, s', k)
  {
    if previous.date != updated.date then
      OnCreate(OnDelete(s, previous), updated)
    else
      var k := KeyOf(updated);
      s[k := Add(Stored(s, k), Sub(updated.macros, previous.macros))]
  }

  /** What entry `e` adds to the totals of row `k`. */
  function Contribution(e: FoodEntry, k: SummaryKey): Nutrients {
    if KeyOf(e) == k then e.macros else Zero
  }

  /** The from-scratch sum over the entries of user and date `k`: what the
      `Sum` aggregate and the serializer's `sum(...)` compute, zero when
      there are no such entries. */
  function Total(es: seq<FoodEntry>, k: SummaryKey): Nutrients {
    if |es| == 0 then Zero else Add(Contribution(es[0], k), Total(es[1..], k))
  }

  /** Every stored row equals the from-scratch sum of its entries, and a
      missing row stands for a day without entries. */
  ghost predicate Sync(es: seq<FoodEntry>, s: SummaryTable) {
    forall k :: Stored(s, k) == Total(es, k)
  }

  predicate AllNonNegative(es: seq<FoodEntry>) {
    forall i | 0 <= i < |es| :: NonNegative(es[i].macros)
  }

  function RemoveAt(es: seq<FoodEntry>, i: nat): seq<FoodEntry>
    requires i < |es|
  {
    es[..i] + es[i + 1..]
  }

  /** A sum over a concatenation is the sum of the two sums. */
  lemma {:induction false} TotalConcat(a: seq<FoodEntry>, b: seq<FoodEntry>, k: SummaryKey)
    ensures Total(a + b, k) == Add(Total(a, k), Total(b, k))
  {
    if |a| == 0 {
      assert a + b == b;
    } else {
      assert (a + b)[1..] == a[1..] + b;
      TotalConcat(a[1..], b, k);
      AddAssociative(Contribution(a[0], k), Total(a[1..], k), Total(b, k));
    }
  }

  lemma TotalAppend(es: seq<FoodEntry>, e: FoodEntry, k: SummaryKey)
    ensures Total(es + [e], k) == Add(Total(es, k), Contribution(e, k))
  {
    TotalConcat(es, [e], k);
  }

  /** The sum splits around any position. */
  lemma TotalSplit(es: seq<FoodEntry>, i: nat, k: SummaryKey)
    requires i < |es|
    ensures Total(es, k) == Add(Add(Total(es[..i], k), Contribution(es[i], k)), Total(es[i + 1..], k))
  {
    assert es == (es[..i] + [es[i]]) + es[i + 1..];
    TotalConcat(es[..i] + [es[i]], es[i + 1..], k);
    TotalAppend(es[..i], es[i], k);
  }

  /** Removing one entry takes exactly its contribution off the sum. */
  lemma TotalRemove(es: seq<FoodEntry>, i: nat, k: SummaryKey)
    requires i < |es|
    ensures Total(RemoveAt(es, i), k) == Sub(Total(es, k), Contribution(es[i], k))
  {
    TotalSplit(es, i, k);
    TotalConcat(es[..i], es[i + 1..], k);
    AddSubCancel(Total(es[..i], k), Contribution(es[i], k), Total(es[i + 1..], k));
  }

  /** Replacing one entry swaps its contribution for the new one's. */
  lemma TotalReplace(es: seq<FoodEntry>, i: nat, u: FoodEntry, k: SummaryKey)
    requires i < |es|
    ensures Total(es[i := u], k) == Add(Sub(Total(es, k), Contribution(es[i], k)), Contribution(u, k))
  {
    var es' := es[i := u];
    assert es'[..i] == es[..i] && es'[i + 1..] == es[i + 1..];
    TotalSplit(es, i, k);
    TotalSplit(es', i, k);
    AddSwapMiddle(Total(es[..i], k), Contribution(es[i], k), Contribution(u, k), Total(es[i + 1..], k));
  }

  /** A day without entries sums to zero. */
  lemma {:induction false} TotalWithoutEntries(es: seq<FoodEntry>, k: SummaryKey)
    requires forall i | 0 <= i < |es| :: KeyOf(es[i]) != k
    ensures Total(es, k) == Zero
  {
    if |es| > 0 {
      TotalWithoutEntries(es[1..], k);
    }
  }

  lemma {:induction false} TotalNonNegative(es: seq<FoodEntry>, k: SummaryKey)
    requires AllNonNegative(es)
    ensures NonNegative(Total(es, k))
    decreases |es|
  {
    if |es| > 0 {
      TotalNonNegative(es[1..], k);
    }
  }

  lemma CreateKeepsRow(es: seq<FoodEntry>, s: SummaryTable, e: FoodEntry, k: SummaryKey)
    requires Stored(s, k) == Total(es, k)
    ensures Stored(OnCreate(s, e), k) == Total(es + [e], k)
  {
    TotalAppend(es, e, k);
    if k != KeyOf(e) {
      assert SameRow(s, OnCreate(s, e), k);
    }
  }

  /** Creating an entry keeps every row equal to its sum. */
  lemma CreateKeepsSync(es: seq<FoodEntry>, s: SummaryTable, e: FoodEntry)
    requires Sync(es, s)
    ensures Sync(es + [e], OnCreate(s, e))
  {
    forall k
      ensures Stored(OnCreate(s, e), k) == Total(es + [e], k)
    {
      CreateKeepsRow(es, s, e, k);
    }
  }

  lemma AllNonNegativeRemove(es: seq<FoodEntry>, i: nat)
    requires AllNonNegative(es)
    requires i < |es|
    ensures AllNonNegative(RemoveAt(es, i))
  {
    var rest := RemoveAt(es, i);
    forall j | 0 <= j < |rest|
      ensures NonNegative(rest[j].macros)
    {
      if j < i { assert rest[j] == es[j]; } else { assert rest[j] == es[j + 1]; }
    }
  }

  /** With non-negative entries, each entry's contribution is covered by
      the sum. */
  lemma TotalCovers(es: seq<FoodEntry>, i: nat, k: SummaryKey)
    requires AllNonNegative(es)
    requires i < |es|
    ensures Le(Contribution(es[i], k), Total(es, k))
  {
    TotalRemove(es, i, k);
    AllNonNegativeRemove(es, i);
    TotalNonNegative(RemoveAt(es, i), k);
  }

  /** Deleting an entry leaves the rows of other days equal to their sums. */
  lemma DeleteOtherRow(es: seq<FoodEntry>, s: SummaryTable, i: nat, k: SummaryKey)
    requires i < |es|
    requires k != KeyOf(es[i])
    requires Stored(s, k) == Total(es, k)
    ensures Stored(OnDelete(s, es[i]), k) == Total(RemoveAt(es, i), k)
  {
    TotalRemove(es, i, k);
    assert SameRow(s, OnDelete(s, es[i]), k);
    assert Contribution(es[i], k) == Zero;
  }

  /** Deleting a non-negative entry from a row equal to its sum takes its
      values off exactly; without a row the entry contributes nothing. */
  lemma DeleteOwnRow(es: seq<FoodEntry>, s: SummaryTable, i: nat)
    requires AllNonNegative(es)
    requires i < |es|
    requires Stored(s, KeyOf(es[i])) == Total(es, KeyOf(es[i]))
    ensures Stored(OnDelete(s, es[i]), KeyOf(es[i])) == Total(RemoveAt(es, i), KeyOf(es[i]))
  {
    var e, k := es[i], KeyOf(es[i]);
    TotalRemove(es, i, k);
    TotalCovers(es, i, k);
    assert Contribution(e, k) == e.macros;
    if k in s {
      ClampSubExact(s[k], e.macros);
    } else {
      assert NonNegative(e.macros);
      assert e.macros == Zero;
    }
  }

  lemma DeleteKeepsRow(es: seq<FoodEntry>, s: SummaryTable, i: nat, k: SummaryKey)
    requires AllNonNegative(es)
    requires i < |es|
    requires Stored(s, KeyOf(es[i])) == Total(es, KeyOf(es[i]))
    requires Stored(s, k) == Total(es, k)
    ensures Stored(OnDelete(s, es[i]), k) == Total(RemoveAt(es, i), k)
  {
    if k != KeyOf(es[i]) {
      DeleteOtherRow(es, s, i, k);
    } else {
      DeleteOwnRow(es, s, i);
    }
  }

  /** While the rows equal the sums of non-negative entries, deleting an
      entry never needs the clamp: the row covers the entry. */
  lemma DeleteNeverClamps(es: seq<FoodEntry>, s: SummaryTable, i: nat)
    requires Sync(es, s) && AllNonNegative(es)
    requires i < |es|
    ensures KeyOf(es[i]) in s ==>
              Le(es[i].macros, s[KeyOf(es[i])])
              && OnDelete(s, es[i]) == s[KeyOf(es[i]) := Sub(s[KeyOf(es[i])], es[i].macros)]
  {
    var k := KeyOf(es[i]);
    TotalCovers(es, i, k);
    assert Stored(s, k) == Total(es, k);
    if k in s {
      ClampSubExact(s[k], es[i].macros);
    }
  }

  /** Deleting an entry keeps every row equal to its sum. */
  lemma DeleteKeepsSync(es: seq<FoodEntry>, s: SummaryTable, i: nat)
    requires Sync(es, s) && AllNonNegative(es)
    requires i < |es|
    ensures Sync(RemoveAt(es, i), OnDelete(s, es[i]))
  {
    assert Stored(s, KeyOf(es[i])) == Total(es, KeyOf(es[i]));
    forall k
      ensures Stored(OnDelete(s, es[i]), k) == Total(RemoveAt(es, i), k)
    {
      DeleteKeepsRow(es, s, i, k);
    }
  }

  lemma MoveKeepsRow(es: seq<FoodEntry>, s: SummaryTable, i: nat, u: FoodEntry, k: SummaryKey)
    requires AllNonNegative(es)
    requires i < |es|
    requires es[i].date != u.date
    requires Stored(s, KeyOf(es[i])) == Total(es, KeyOf(es[i]))
    requires Stored(s, k) == Total(es, k)
    ensures Stored(OnUpdate(s, es[i], u), k) == Total(es[i := u], k)
  {
    var rest := RemoveAt(es, i);
    DeleteKeepsRow(es, s, i, k);
    CreateKeepsRow(rest, OnDelete(s, es[i]), u, k);
    TotalReplace(es, i, u, k);
    TotalAppend(rest, u, k);
    TotalRemove(es, i, k);
  }

  lemma SameDateRow(s: SummaryTable, previous: FoodEntry, updated: FoodEntry)
    requires KeyOf(previous) == KeyOf(updated)
    ensures Stored(OnUpdate(s, previous, updated), KeyOf(updated))
            == Add(Sub(Stored(s, KeyOf(updated)), previous.macros), updated.macros)
  {
    AddSubSwap(Stored(s, KeyOf(updated)), previous.macros, updated.macros);
  }

  lemma OtherRowUntouched(s: SummaryTable, previous: FoodEntry, updated: FoodEntry, k: SummaryKey)
    requires k != KeyOf(previous) && k != KeyOf(updated)
    ensures Stored(OnUpdate(s, previous, updated), k) == Stored(s, k)
  {
    assert SameRow(s, OnUpdate(s, previous, updated), k);
  }

  lemma SameDateKeepsRow(es: seq<FoodEntry>, s: SummaryTable, i: nat, u: FoodEntry, k: SummaryKey)
    requires i < |es|
    requires KeyOf(u) == KeyOf(es[i])
    requires Stored(s, k) == Total(es, k)
    ensures Stored(OnUpdate(s, es[i], u), k) == Total(es[i := u], k)
  {
    TotalReplace(es, i, u, k);
    var t := Total(es, k);
    if k != KeyOf(u) {
      OtherRowUntouched(s, es[i], u, k);
      assert Add(Sub(t, Zero), Zero) == t;
    } else {
      SameDateRow(s, es[i], u);
    }
  }

  /** Updating an entry in place (same owner) keeps every row equal to its
      sum, on both the move and the same-date path. */
  lemma UpdateKeepsSync(es: seq<FoodEntry>, s: SummaryTable, i: nat, u: FoodEntry)
    requires Sync(es, s) && AllNonNegative(es)
    requires i < |es|
    requires u.user == es[i].user
    ensures Sync(es[i := u], OnUpdate(s, es[i], u))
  {
    assert Stored(s, KeyOf(es[i])) == Total(es, KeyOf(es[i]));
    forall k
      ensures Stored(OnUpdate(s, es[i], u), k) == Total(es[i := u], k)
    {
      if es[i].date != u.date {
        MoveKeepsRow(es, s, i, u, k);
      } else {
        SameDateKeepsRow(es, s, i, u, k);
      }
    }
  }
}

=== FILE: text.dfy ===
/** The string normalisations the backend applies when it matches food
    names: Python's `str.strip()` and `str.lower()`, and the database's
    case-insensitive `iexact` / `icontains` lookups. Case folding is
    modelled for the ASCII letters only. */
module Text {

  /** The characters `str.strip()` removes: those for which Python's
      `str.isspace()` holds. */
  predicate IsWhitespace(c: char) {
    var n := c as int;
    || 9 <= n <= 13
    || 28 <= n <= 32
    || n == 0x85 || n == 0xA0 || n == 0x1680
    || 0x2000 <= n <= 0x200A
    || n == 0x2028 || n == 0x2029 || n == 0x202F || n == 0x205F || n == 0x3000
  }

  predicate IsUpper(c: char) {
    'A' <= c <= 'Z'
  }

  function LowerChar(c: char): char {
    if IsUpper(c) then (c as int + 32) as char else c
  }

  /** `s.lower()`, restricted to ASCII letters. */
  function Lower(s: string): (r: string)
    ensures |r| == |s|
    ensures forall i | 0 <= i < |r| :: !IsUpper(r[i])
    ensures forall i | 0 <= i < |s| :: !IsUpper(s[i]) ==> r[i] == s[i]
    ensures forall i | 0 <= i < |s| :: IsUpper(s[i]) ==> r[i] as int == s[i] as int + 32
  {
    seq(|s|, i requires 0 <= i < |s| => LowerChar(s[i]))
  }

  function TrimStart(s: string): string
    decreases |s|
  {
    if |s| > 0 && IsWhitespace(s[0]) then TrimStart(s[1..]) else s
  }

  function TrimEnd(s: string): string
    decreases |s|
  {
    if |s| > 0 && IsWhitespace(s[|s| - 1]) then TrimEnd(s[..|s| - 1]) else s
  }

  /** `s.strip()`: drops leading and trailing whitespace. */
  function Strip(s: string): string {
    TrimEnd(TrimStart(s))
  }

  /** `s` occurs in `t` starting at position `i`. */
  predicate InfixAt(s: string, t: string, i: int) {
    0 <= i <= |t| - |s| && t[i..i + |s|] == s
  }

  /** `s` occurs in `t` as a contiguous run. */
  predicate IsInfix(s: string, t: string) {
    exists i | 0 <= i <= |t| - |s| :: InfixAt(s, t, i)
  }

  /** The `iexact` lookup: equal once case is ignored. */
  predicate EqualsIgnoreCase(a: string, b: string) {
    Lower(a) == Lower(b)
  }

  /** The `icontains` lookup: `needle` occurs in `hay` once case is ignored. */
  predicate ContainsIgnoreCase(hay: string, needle: string) {
    IsInfix(Lower(needle), Lower(hay))
  }

  /** `TrimStart` drops a run of whitespace from the front and stops at
      the first other character. */
  lemma {:induction false} TrimStartSpec(s: string)
    ensures |TrimStart(s)| <= |s| && TrimStart(s) == s[|s| - |TrimStart(s)|..]
    ensures forall j | 0 <= j < |s| - |TrimStart(s)| :: IsWhitespace(s[j])
    ensures TrimStart(s) == [] || !IsWhitespace(TrimStart(s)[0])
    decreases |s|
  {
    if |s| > 0 && IsWhitespace(s[0]) {
      var rest := s[1..];
      TrimStartSpec(rest);
      var i := |s| - |TrimStart(s)|;
      assert rest[i - 1..] == s[i..];
      forall j | 0 < j < i
        ensures IsWhitespace(s[j])
      {
        assert s[j] == rest[j - 1];
      }
    }
  }

  /** `TrimEnd` drops a run of whitespace from the back and stops at the
      last other character. */
  lemma {:induction false} TrimEndSpec(s: string)
    ensures |TrimEnd(s)| <= |s| && TrimEnd(s) == s[..|TrimEnd(s)|]
    ensures forall j | |TrimEnd(s)| <= j < |s| :: IsWhitespace(s[j])
    ensures TrimEnd(s) == [] || !IsWhitespace(TrimEnd(s)[|TrimEnd(s)| - 1])
    decreases |s|
  {
    if |s| > 0 && IsWhitespace(s[|s| - 1]) {
      var p := s[..|s| - 1];
      TrimEndSpec(p);
      var k := |TrimEnd(s)|;
      assert p[..k] == s[..k];
      forall j | k <= j < |s| - 1
        ensures IsWhitespace(s[j])
      {
        assert s[j] == p[j];
      }
    }
  }

  lemma {:induction false} TrimEndKeepsFirst(s: string)
    requires s == [] || !IsWhitespace(s[0])
    ensures TrimEnd(s) == [] || TrimEnd(s)[0] == s[0]
    decreases |s|
  {
    if |s| > 0 && IsWhitespace(s[|s| - 1]) {
      TrimEndKeepsFirst(s[..|s| - 1]);
    }
  }

  /** `s[i..k]` is what remains of `s` once only whitespace is cut from
      its two ends. */
  predicate CutAt(s: string, i: int, k: int) {
    && 0 <= i <= k <= |s|
    && (forall j | 0 <= j < i :: IsWhitespace(s[j]))
    && (forall j | k <= j < |s| :: IsWhitespace(s[j]))
  }

  /** Cutting whitespace from the front and then from the back of what is
      left is one cut of `s`. */
  lemma CutShift(s: string, i: nat, t: string, m: nat)
    requires i <= |s| && t == s[i..] && m <= |t|
    requires forall j | 0 <= j < i :: IsWhitespace(s[j])
    requires forall j | m <= j < |t| :: IsWhitespace(t[j])
    ensures CutAt(s, i, i + m) && t[..m] == s[i..i + m]
  {
    forall j | i + m <= j < |s|
      ensures IsWhitespace(s[j])
    {
      var jt := j - i;
      assert IsWhitespace(t[jt]);
      assert t[jt] == s[j];
    }
  }

  lemma StripEnds(s: string)
    ensures var r := Strip(s);
            r == [] || (!IsWhitespace(r[0]) && !IsWhitespace(r[|r| - 1]))
  {
    var t := TrimStart(s);
    TrimStartSpec(s);
    TrimEndSpec(t);
    TrimEndKeepsFirst(t);
  }

  lemma StripIsCut(s: string)
    ensures exists i, k :: CutAt(s, i, k) && Strip(s) == s[i..k]
  {
    var t := TrimStart(s);
    TrimStartSpec(s);
    TrimEndSpec(t);
    var i, m := |s| - |t|, |TrimEnd(t)|;
    CutShift(s, i, t, m);
    assert CutAt(s, i, i + m) && Strip(s) == s[i..i + m];
  }

  /** The stripped string is a contiguous part of the original with no
      whitespace at either end, and only whitespace was cut away. */
  lemma StripSpec(s: string)
    ensures var r := Strip(s);
            r == [] || (!IsWhitespace(r[0]) && !IsWhitespace(r[|r| - 1]))
    ensures exists i, k :: CutAt(s, i, k) && Strip(s) == s[i..k]
  {
    StripEnds(s);
    StripIsCut(s);
  }

  lemma {:induction false} TrimStartNoop(s: string)
    requires s == [] || !IsWhitespace(s[0])
    ensures TrimStart(s) == s
  {
  }

  lemma {:induction false} TrimEndNoop(s: string)
    requires s == [] || !IsWhitespace(s[|s| - 1])
    ensures TrimEnd(s) == s
  {
  }

  /** Stripping twice is stripping once. */
  lemma StripIdempotent(s: string)
    ensures Strip(Strip(s)) == Strip(s)
  {
    StripSpec(s);
    var r := Strip(s);
    TrimStartNoop(r);
    TrimEndNoop(r);
  }

  /** Lower-casing twice is lower-casing once. */
  lemma LowerIdempotent(s: string)
    ensures Lower(Lower(s)) == Lower(s)
  {
  }

  /** An `iexact` match is also an `icontains` match. */
  lemma EqualsIgnoreCaseContains(hay: string, needle: string)
    requires EqualsIgnoreCase(hay, needle)
    ensures ContainsIgnoreCase(hay, needle)
  {
    var h := Lower(hay);
    assert h[0..0 + |h|] == h;
    assert InfixAt(Lower(needle), h, 0);
  }
}

=== FILE: wrappers.dfy ===
/** Optional values and success/failure results shared by the whole model. */
module Wrappers {

  /** A value that may be missing: a JSON key that is absent or null, an
      unmatched lookup. */
  datatype Option<+T> = None | Some(value: T) {

    /** The wrapped value, or `default` when there is none. */
    function GetOr(default: T): T {
      match this
      case Some(v) => v
      case None => default
    }
  }

  /** The outcome of a request handler: the new state, or the error response. */
  datatype Result<+T, +E> = Success(value: T) | Failure(error: E)
}
